=== FILE: README.md ===
# Text-to-SQL query pipeline, modelled in Dafny

This project models the query-safety pipeline of a small Flask service, `main.py`. The service:

- turns a natural-language question about a `students` relation into one SQL query;
- validates the query and runs it on a PostgreSQL connection pool;
- if the first execution fails, asks the language model once to repair the query.

The model covers four parts of `main.py`:

- **Sanitizer** (`clean_sql_output`), module `Sanitizer`. It removes code fences, cuts from the first case-insensitive `select` to the first `;`, renames the whole word `student` to `students`, and appends ` LIMIT 50` unless the text already has `limit`, `count(`, `avg(` or `sum(`.
- **Validator** (`validate_sql`), module `Validator`. This is the only gate before the database. The query must begin, after leading whitespace, with the word `select`, and its lowercase form must contain none of six mutating keywords.
- **Executor** (`execute_query`), module `Executor`. It checks a connection out of the pool, runs the query, builds one name-keyed record per row, and always returns the connection.
- **Route** (`chat` and `generate_sql`), modules `Route` and `Orchestrator`. The route generates, validates and executes. After a failed first execution it runs exactly one repair cycle: repair prompt, clean, validate, execute. Each outcome has its own response.

The shared string primitives are in module `Text`: ASCII character classes, lowercasing, substring search, `str.replace(p, "")` and `str.strip()`. Module `Wrappers` holds `Option`.

The language model, the database and the pool are abstract:

- The model is an oracle `Prompt -> OracleReply`.
- The database is a function from query text to the cursor's columns and rows, or to the message of an exception raised while the query runs.
- The pool is the count of checked-out connections.

`Route.Respond` is generic in its collaborators (`Env`). `Orchestrator.Chat` wires it to `Sanitizer.Clean` and `Validator.IsSafe` as `main.py` does. A `Trace` records the prompts sent and the queries executed.

Some facts about the system as written:

- **Order of checks in the sanitizer.** The empty-input test happens before fences are removed. The `select` search runs on the stripped text and needs at least one character after `select`. So `"```"` and `"select  "` both give `None`.
- **Statement separator.** The validator never looks for a `;`: two accepted queries joined by `;` are accepted together (`Validator.JoinedStatementsAccepted`). A request executes one statement only because the sanitizer cuts at the first `;`. `Orchestrator.Chat` proves that no executed query contains a `;`.
- **Word boundary.** The sanitizer's `select` search is not word-bounded, but the validator's is. Prose such as "I selected:" before the query therefore yields a cleaned query the validator refuses (`Validator.KeywordBoundaryRequired`).
- **Pool exhaustion.** Checkout raises immediately when all ten connections are in use; it does not block. The call is outside the `try` of `execute_query`, so nothing is returned to the pool. The route catches the error like any execution error, so a full pool leads into the repair cycle.

## Model

| member | source | states |
|---|---|---|
| Text.Lower | main.py:54-57 | `str.lower()` (also at main.py:148) keeps the length and lowercases each ASCII letter, leaving every other character as it is |
| Text.Contains | main.py:54-57 | Python's `p in s` (also at main.py:148), whose meaning `Text.ContainsIff` states |
| Text.ContainsIff | main.py:54-57 | `p in s` holds exactly when `p` occurs at some index of `s` |
| Text.RemoveAllAbsent | main.py:41 | `str.replace(p, "")` changes nothing in text without `p` |
| Text.RemoveAll | main.py:41 | `str.replace(p, "")` never lengthens the text and leaves text without `p` alone (`Text.RemoveAllAbsent`); for "```" it leaves none behind (`Text.NoFenceAfterRemoval`) |
| Text.NoFenceAfterRemoval | main.py:41 | whatever the text, removing "```" leaves no "```" behind: the left-to-right pass cannot join two pieces into a new fence |
| Text.LStrip | main.py:41 | the left strip drops an all-space prefix and keeps the rest, which is empty or starts with a non-space |
| Text.RStrip | main.py:41 | the right strip drops an all-space suffix and keeps the rest, which is empty or ends with a non-space |
| Text.Strip | main.py:41 | `strip()` (also used at main.py:47), whose contract is carried by `Text.StripShape` and `Text.StripIdentity` |
| Text.StripShape | main.py:41 | `strip()` returns the infix between an all-space prefix and an all-space suffix, with non-space ends |
| Text.StripIdentity | main.py:41 | text with non-space ends is left as it is by `strip()` |
| Sanitizer.UnfenceHasNoFence | main.py:41 | the fence-removed, stripped text contains no "```" |
| Sanitizer.Unfence | main.py:41 | the unfencing step, whose contract is carried by `Sanitizer.UnfenceHasNoFence` and `Sanitizer.UnfenceIdentity` |
| Sanitizer.FindSelect | main.py:43-45 | the search yields the leftmost index where `select` (any case) is followed by at least one character, and yields none exactly when no such index exists |
| Sanitizer.UpToSemicolon | main.py:47 | `split(";")[0]` is the longest prefix without `;`, ending at the first `;` or at the end |
| Sanitizer.StatementFacts | main.py:43-47 | the extracted statement is the slice of the unfenced text at the match, starting with `select`, free of `;`, ending in a non-space, and followed only by blanks up to the first `;` |
| Sanitizer.Extract | main.py:38-47 | gives None exactly when the input is empty or the unfenced text has no `select` with a character after it; otherwise gives the trimmed statement from the leftmost match to the first `;`, without fences |
| Sanitizer.RenameTable | main.py:50 | `re.sub(r"\bstudent\b", ...)`, whose contract is carried by the `Sanitizer.Rename...` rows below |
| Sanitizer.RenameWord | main.py:50 | a single word run is replaced by `students` exactly when it lowercases to `student`, and is kept otherwise |
| Sanitizer.RenameAppend | main.py:50 | the rename works token by token: across a non-word boundary it distributes over concatenation |
| Sanitizer.RenameLeavesNoEntityWord | main.py:50 | after the rename no whole-word `student` remains, in any case |
| Sanitizer.RenameIdentity | main.py:50 | text without a whole-word `student` is unchanged by the rename |
| Sanitizer.RenameIdempotent | main.py:50 | renaming twice is renaming once |
| Sanitizer.RenamePluralUnchanged | main.py:50 | `students` is unchanged, because `\b` does not hold between `t` and `s` |
| Sanitizer.RenameColumnUnchanged | main.py:50 | `student_name` is unchanged, because `_` is a word character |
| Sanitizer.RenameSingular | main.py:50 | `Student` becomes `students` (case-insensitive match) |
| Sanitizer.RenameCreatesNoNonWord | main.py:50 | every occurrence of a non-word pattern (such as "```") in the renamed text was already in the original |
| Sanitizer.AddLimit | main.py:53-59 | ` LIMIT 50` is appended exactly when the lowercased query contains none of `limit`, `count(`, `avg(`, `sum(`, and the result never needs another |
| Sanitizer.AddLimitIdempotent | main.py:53-59 | the cap is never added twice |
| Sanitizer.KeywordAloneNeedsLimit | main.py:53-59 | a bare `select` keyword does get the cap |
| Sanitizer.Clean | main.py:37-61 | gives None exactly in the two failure cases; otherwise the result starts with `select`, has no `;`, no "```", no whole-word `student`, ends in a non-space, and needs no further cap |
| Sanitizer.CleanCapsWhenNeeded | main.py:47-61 | a cleaned result is the renamed extracted statement, plus ` LIMIT 50` exactly when that statement needed one |
| Sanitizer.CleanFixpointIff | main.py:37-61 | a string is its own cleaning exactly when it has the cleaned shape |
| Sanitizer.CleanIdempotent | main.py:37-61 | cleaning a cleaned query returns it unchanged |
| Validator.BeginsWithSelectIff | main.py:144-145 | the first check holds exactly when only whitespace precedes a `select` word that ends at a non-word character or at the end |
| Validator.BeginsWithSelect | main.py:144-145 | the first check, whose meaning `Validator.BeginsWithSelectIff` states in both directions |
| Validator.MentionsForbiddenIff | main.py:147-149 | the second check fails exactly when a forbidden keyword occurs at some index of the lowercased query |
| Validator.MentionsForbidden | main.py:147-149 | the second check, whose meaning `Validator.MentionsForbiddenIff` states in both directions |
| Validator.IsSafe | main.py:143-151 | true exactly when only whitespace precedes a `select` word and no forbidden keyword occurs anywhere, in any case |
| Validator.LiteralUpdateRejected | main.py:147-149 | `... ILIKE '%update%'` is rejected, even though `update` is inside a string literal |
| Validator.CommentFirstRejected | main.py:144-145 | a query whose first character is neither whitespace nor `s` (for example a leading comment) is rejected |
| Validator.KeywordBoundaryRequired | main.py:144-145 | a query whose first word only begins with `select` (`selected_rows`) is rejected |
| Validator.JoinedStatementsAccepted | main.py:143-151 | two accepted queries joined by `;` are accepted together: the validator does not detect a second statement |
| Executor.ZipRecord | main.py:132-135 | a record has exactly the column names paired by `zip` as keys, and a column's last position determines its value |
| Executor.ZipRecordDistinct | main.py:132-135 | with distinct names and a full row, every column maps to the value at its position and the record has one entry per column |
| Executor.Materialize | main.py:133-135 | one record per fetched row, in order |
| Executor.Execute | main.py:127-137 | the pool ends as it started; a full pool gives the exhaustion error; a driver error is passed on; otherwise one record per row |
| Executor.ExecuteQuery | main.py:127-137 | the loop over the fetched rows computes what `Execute` specifies |
| Route.Response.Status | main.py:164-231 | the status paired with each payload: 200 exactly for an answer, 400 exactly for a missing question or a blocked query, 500 exactly for a failed generation, an unfixable query or a failed repair |
| Route.Generate | main.py:102-121 | `generate_sql` for any sanitizer, whose contract is carried by `Orchestrator.GenerateSql` and `Route.Respond` |
| Route.Reexecute | main.py:218-231 | the repaired query is executed after the original; its rows give an `Answer` with `corrected` set and the row count, its error gives the 500 response carrying that error and the original query |
| Route.RepairCycle | main.py:184-231 | one repair prompt carrying the failed query and its error; only a cleaned, validated repair is executed; the repair-stage rows of the outcome table (`RepairOutcome`): oracle exception, no query or refused query, second success, second failure |
| Route.FirstExecution | main.py:174-231 | the validated query is executed first; its rows give an `Answer` without `corrected`, and its failure leads to the repair-stage rows (`FirstOutcome`); the repair prompt is sent exactly when the first execution fails; `corrected` holds exactly when two queries ran |
| Route.Respond | main.py:157-231 | every executed query passed the validator and is the cleaned reply to its prompt; at most two executions and one repair; the pool is unchanged; `NoQuestion` exactly for an empty question, refused before any oracle call; the generation-stage rows of the outcome table, and a validated generated query runs with the rows of `FirstOutcome` |
| Route.StatusReflectsStage | main.py:163-231 | status 400 means nothing was executed; a 500 after an execution followed a repair prompt; status 200 is exactly an answer |
| Route.Step | main.py:163-231 | one stage of the route keeps the pool and executes at most one more query, keeping the earlier ones |
| Route.Run | main.py:157-231 | the staged route, whose contract is carried by `Route.MachineExecutesOnlySafe` and `Route.RunAgreesWithRespond` |
| Route.MachineExecutesOnlySafe | main.py:166-218 | on the step-by-step reading of the route, no query reaches the database without passing the validator |
| Route.RunAgreesWithRespond | main.py:157-231 | the step-by-step machine ends, within seven steps, in exactly the trace `Respond` gives |
| Orchestrator.GenerateSql | main.py:102-121 | a generated query exists exactly when the oracle replied and the reply cleans to a query; it is then `Clean` of that reply, and so has the cleaned shape |
| Orchestrator.Chat | main.py:157-231 | `chat` is the generic route wired to this sanitizer and validator, so all of `Route.Respond`'s contract holds; in addition every executed query is accepted by the validator and has the cleaned shape, the pool is unchanged, at most two queries run, the early exits follow `GenerateSql` and `IsSafe`, and a validated generated query runs with the rows of `FirstOutcome` |
| Orchestrator.ChatExecutesCleanedReplies | main.py:166-218 | each executed query is `Clean` of the oracle's reply to the prompt at the same position |
| Orchestrator.ChatPrompts | main.py:157-231 | an empty question gets `NoQuestion` and no prompt, and only an empty question does; otherwise the generation prompt comes first, and a second, repair prompt is sent exactly after a failed first execution; at most two prompts |
| Orchestrator.ExecutedAreFixpoints | main.py:166-218 | every executed query is accepted by the validator and is left unchanged by the sanitizer |

## Left out

- HTTP plumbing is not modelled: Flask routing, CORS, `request.get_json` and `jsonify`. Responses are a datatype with a `Status()` function. A request body that is not JSON, or whose `message` is not a string, is not modelled. A missing `message` counts the same as an empty one.
- The Ollama HTTP call is not modelled: `requests.post`, its timeout and JSON decoding. It is the oracle parameter, and any exception it raises is `OracleFailure`. A reply without a `response` field is the empty text. A `response` that is not a string is not modelled.
- psycopg2 is not modelled: its pool and cursor are foreign code. Every exception raised inside the `try` of `execute_query`, or by `jsonify`, is one `DbError` with its message; pool exhaustion, raised before that `try`, is its own error. That covers a driver error, and also the `TypeError` raised for a statement with no result set (`cursor.description` of None), which a validated query such as `SELECT ... INTO` can be. It also covers a result `jsonify` cannot serialise. An exception of the oracle call inside the repair `try` is `OracleFailure` instead. Which message each of these carries is not modelled. The exhaustion error's message is a constant.
- Concurrency is not modelled: requests that share the pool are left out, so each request sees the pool as a plain counter.
- The prompts' exact wording is not modelled. Prompts are reduced to what they embed: the question, or the failed query with its error text.
- Unicode is not modelled. Case-insensitive matching, `str.lower()`, `\s`, `\w` and `str.isspace()` are Unicode-aware in Python; the model uses ASCII. For example, `ſ` matching `s` is not modelled.
- The regular-expression engine is not modelled. Each of the three regular expressions is written out as the string function it computes.
- Logging (`print`) and the configuration constants are left out, apart from the table name `students`, the cap `50` and the pool size `10`.
- The falsy test on a generated or repaired query (`not sql_query`) is modelled as a test for `None`. Python's test also rejects an empty string, but `Sanitizer.Clean` never returns one: its result is always longer than `select`.
- Database values are an abstract `Scalar`. How they are serialised to JSON is not modelled.
- Route.Run: the step-by-step reading takes a step bound as a parameter. Seven steps are enough for every path of the route, as `Route.RunAgreesWithRespond` shows.

=== FILE: executor.dfy ===
/**
 * `execute_query` (main.py): check a connection out of the pool, run the
 * query, turn every fetched row into a record keyed by the cursor's column
 * names, and return the connection whatever happens.  The database is an
 * abstract function from query text to what the cursor reports; the pool is
 * the number of connections currently checked out.
 */
module Executor {

  /** A scalar the database can return in a cell. */
  datatype Scalar =
    | SqlNull
    | SqlBool(b: bool)
    | SqlInt(i: int)
    | SqlText(s: string)
    | SqlOther(repr: string)  // dates, decimals and the like

  /** `dict(zip(column_names, row))`. */
  type Record = map<string, Scalar>

  /** What running one query yields: the column names from
      `cursor.description` and all rows from `fetchall()`, or the message of
      an exception raised on the way.  `DbError` stands for any such
      exception: one the driver raises, the `TypeError` of a statement
      without a result set (`cursor.description` is None), and, as the route
      sees it, a result `jsonify` cannot serialise. */
  datatype DbOutcome =
    | Fetched(columns: seq<string>, rows: seq<seq<Scalar>>)
    | DbError(message: string)

  /** The result of `execute_query`: records, or the exception it lets
      escape, carried as its message (`str(e)`). */
  datatype ExecResult =
    | Rows(records: seq<Record>)
    | ExecError(message: string)

  /** The connection pool, as the count of checked-out connections. */
  datatype Pool = Pool(checkedOut: nat)

  /** `SimpleConnectionPool(1, 10, ...)`: at most ten connections. */
  const MaxConnections := 10

  /** The message of the `PoolError` `getconn` raises when all are in use. */
  const PoolExhausted := "connection pool exhausted"

  function Min(a: int, b: int): int {
    if a < b then a else b
  }

  /** The columns of `cols` that `zip` pairs with a value of `row`. */
  function Width(cols: seq<string>, row: seq<Scalar>): nat {
    Min(|cols|, |row|)
  }

  /** The first `n` pairs of `zip(cols, row)` inserted into a dict left to
      right: a repeated column name keeps the value of its last position. */
  function ZipPrefix(cols: seq<string>, row: seq<Scalar>, n: nat): (rec: Record)
    requires n <= Width(cols, row)
    ensures rec.Keys == set i | 0 <= i < n :: cols[i]
    ensures forall i :: 0 <= i < n ==>
      (forall j :: i < j < n ==> cols[j] != cols[i]) ==> rec[cols[i]] == row[i]
  {
    if n == 0 then map[]
    else
      var prefix := ZipPrefix(cols, row, n - 1);
      ColumnsSnoc(cols, n);
      prefix[cols[n - 1] := row[n - 1]]
  }

  /** The first `n` column names are the first `n - 1` ones plus the last. */
  lemma ColumnsSnoc(cols: seq<string>, n: nat)
    requires 0 < n <= |cols|
    ensures (set i | 0 <= i < n :: cols[i]) == (set i | 0 <= i < n - 1 :: cols[i]) + {cols[n - 1]}
  {
    var whole := set i | 0 <= i < n :: cols[i];
    var split := (set i | 0 <= i < n - 1 :: cols[i]) + {cols[n - 1]};
    forall x | x in whole
      ensures x in split
    {
      var i :| 0 <= i < n && cols[i] == x;
    }
  }

  /** `dict(zip(cols, row))`: `zip` stops at the shorter sequence. */
  function ZipRecord(cols: seq<string>, row: seq<Scalar>): (rec: Record)
    ensures rec.Keys == set i | 0 <= i < Width(cols, row) :: cols[i]
    ensures forall i :: 0 <= i < Width(cols, row) ==>
      (forall j :: i < j < Width(cols, row) ==> cols[j] != cols[i]) ==> rec[cols[i]] == row[i]
  {
    ZipPrefix(cols, row, Width(cols, row))
  }

  /** With distinct column names and a full row, the record maps every
      column to the value at its position and has one entry per column. */
  lemma ZipRecordDistinct(cols: seq<string>, row: seq<Scalar>)
    requires |row| == |cols|
    requires forall i, j :: 0 <= i < j < |cols| ==> cols[i] != cols[j]
    ensures forall i :: 0 <= i < |cols| ==> cols[i] in ZipRecord(cols, row) && ZipRecord(cols, row)[cols[i]] == row[i]
    ensures |ZipRecord(cols, row)| == |cols|
  {
    CardinalityOfInjectiveImage(cols);
  }

  /** A sequence without repetitions has as many distinct elements as it is
      long. */
  lemma {:induction false} CardinalityOfInjectiveImage(cols: seq<string>)
    requires forall i, j :: 0 <= i < j < |cols| ==> cols[i] != cols[j]
    ensures |set i | 0 <= i < |cols| :: cols[i]| == |cols|
  {
    if cols != [] {
      var init := cols[..|cols| - 1];
      CardinalityOfInjectiveImage(init);
      var s := set i | 0 <= i < |init| :: init[i];
      var t := set i | 0 <= i < |cols| :: cols[i];
      assert t == s + {cols[|cols| - 1]};
      assert cols[|cols| - 1] !in s;
    }
  }

  /** The list comprehension over `fetchall()`. */
  function Materialize(cols: seq<string>, rows: seq<seq<Scalar>>): (recs: seq<Record>)
    ensures |recs| == |rows|
    ensures forall i :: 0 <= i < |rows| ==> recs[i] == ZipRecord(cols, rows[i])
  {
    seq(|rows|, i requires 0 <= i < |rows| => ZipRecord(cols, rows[i]))
  }

  /** `execute_query`, with the connection checkout made explicit.  A full
      pool makes `getconn` raise before the `try`, so nothing is checked out
      or returned; otherwise the `finally` clause returns the connection on
      both the result and the error path.  Either way the pool ends as it
      started, and no partial result escapes. */
  function Execute(db: string -> DbOutcome, pool: Pool, sql: string): (out: (ExecResult, Pool))
    ensures out.1 == pool
    ensures pool.checkedOut >= MaxConnections ==> out.0 == ExecError(PoolExhausted)
    ensures pool.checkedOut < MaxConnections && db(sql).DbError? ==> out.0 == ExecError(db(sql).message)
    ensures pool.checkedOut < MaxConnections && db(sql).Fetched? ==>
      && out.0.Rows?
      && |out.0.records| == |db(sql).rows|
      && forall i :: 0 <= i < |db(sql).rows| ==> out.0.records[i] == ZipRecord(db(sql).columns, db(sql).rows[i])
  {
    if pool.checkedOut >= MaxConnections then
      (ExecError(PoolExhausted), pool)
    else
      var held := Pool(pool.checkedOut + 1);
      var result :=
        match db(sql)
        case DbError(m) => ExecError(m)
        case Fetched(cols, rows) => Rows(Materialize(cols, rows));
      (result, Pool(held.checkedOut - 1))
  }

  /** The same operation written as the loop over the fetched rows. */
  method ExecuteQuery(db: string -> DbOutcome, pool: Pool, sql: string) returns (result: ExecResult, after: Pool)
    ensures (result, after) == Execute(db, pool, sql)
  {
    if pool.checkedOut >= MaxConnections {
      return ExecError(PoolExhausted), pool;
    }
    var held := pool.checkedOut + 1;
    match db(sql) {
      case DbError(m) =>
        result := ExecError(m);
      case Fetched(cols, rows) =>
        var recs: seq<Record> := [];
        var k := 0;
        while k < |rows|
          invariant 0 <= k <= |rows|
          invariant |recs| == k
          invariant forall i :: 0 <= i < k ==> recs[i] == ZipRecord(cols, rows[i])
        {
          recs := recs + [ZipRecord(cols, rows[k])];
          k := k + 1;
        }
        assert recs == Materialize(cols, rows);
        result := Rows(recs);
    }
    after := Pool(held - 1);
  }
}

=== FILE: orchestrator.dfy ===
/**
 * The route wired to this model's sanitizer and validator, which is how
 * main.py wires it: `generate_sql` and the repair branch both pass the
 * oracle's text through `clean_sql_output`, and both queries go through
 * `validate_sql` before `execute_query`.
 */
module Orchestrator {
  import opened Wrappers
  import opened Sanitizer
  import opened Validator
  import opened Executor
  import opened Route

  /** The collaborators of main.py: any oracle and database, with `Clean` and
      `IsSafe` as the sanitizer and the validator. */
  function Wired(oracle: Prompt -> OracleReply, db: string -> DbOutcome): (env: Env)
    ensures env.oracle == oracle && env.db == db
  {
    Env(oracle, Clean, IsSafe, db)
  }

  /** `generate_sql`: an oracle exception becomes `None`; otherwise the reply
      is cleaned, so a generated query always has the sanitizer's shape. */
  function GenerateSql(oracle: Prompt -> OracleReply, question: string): (r: Option<string>)
    ensures r.Some? ==> CleanShape(r.value)
    ensures r.Some? <==> oracle(Gen(question)).Reply? && Clean(oracle(Gen(question)).text).Some?
    ensures r.Some? ==> r == Clean(oracle(Gen(question)).text)
  {
    match oracle(Gen(question))
    case OracleFailure(_) => None
    case Reply(text) => Clean(text)
  }

  /** The generic route generates exactly what `GenerateSql` does. */
  lemma GenerateAgrees(oracle: Prompt -> OracleReply, db: string -> DbOutcome, question: string)
    ensures Generate(Wired(oracle, db), question) == GenerateSql(oracle, question)
  {
  }

  /** A query the route may hand to the database: it passed the validator
      and has the shape the sanitizer produces. */
  ghost predicate Admitted(q: string) {
    IsSafe(q) && CleanShape(q)
  }

  /** The `/chat` route: the generic route with this sanitizer and validator,
      so every guarantee of `Respond` holds of it.  Beyond those, every
      executed query is `IsSafe` and has the sanitizer's shape (it starts with
      select, has no semicolon and no fence, names no singular table, and
      carries a LIMIT or an aggregate), the early exits are decided by
      `GenerateSql` and `IsSafe`, and a validated query is executed with the
      outcomes of `FirstOutcome`. */
  function Chat(oracle: Prompt -> OracleReply, db: string -> DbOutcome, pool: Pool, question: string): (t: Trace)
    ensures t == Respond(Wired(oracle, db), pool, question)
    ensures forall i :: 0 <= i < |t.executed| ==> Admitted(t.executed[i])
    ensures t.pool == pool && |t.executed| <= 2
    ensures question != [] && GenerateSql(oracle, question).None? ==>
      t.response == GenerationFailed && t.executed == []
    ensures question != [] && GenerateSql(oracle, question).Some? && !IsSafe(GenerateSql(oracle, question).value) ==>
      t.response == UnsafeBlocked && t.executed == []
    ensures question != [] && GenerateSql(oracle, question).Some? && IsSafe(GenerateSql(oracle, question).value) ==>
      FirstOutcome(Wired(oracle, db), pool, GenerateSql(oracle, question).value, t)
  {
    var env := Wired(oracle, db);
    var t := Respond(env, pool, question);
    GenerateAgrees(oracle, db, question);
    forall i | 0 <= i < |t.executed|
      ensures Admitted(t.executed[i])
    {
      assert env.safe(t.executed[i]) && CleanedReply(env, t.prompts[i], t.executed[i]);
    }
    t
  }

  /** Each query `chat` executes is what `clean_sql_output` made of the
      oracle's reply to the prompt at the same position. */
  lemma ChatExecutesCleanedReplies(oracle: Prompt -> OracleReply, db: string -> DbOutcome, pool: Pool, question: string)
    ensures var t := Chat(oracle, db, pool, question);
      forall i :: 0 <= i < |t.executed| ==>
        i < |t.prompts| && oracle(t.prompts[i]).Reply? && Clean(oracle(t.prompts[i]).text) == Some(t.executed[i])
  {
    var env := Wired(oracle, db);
    var t := Chat(oracle, db, pool, question);
    forall i | 0 <= i < |t.executed|
      ensures i < |t.prompts| && oracle(t.prompts[i]).Reply? && Clean(oracle(t.prompts[i]).text) == Some(t.executed[i])
    {
      assert CleanedReply(env, t.prompts[i], t.executed[i]);
    }
  }

  /** The prompts `chat` sends: none for an empty question, which alone is
      answered `NoQuestion`; otherwise the generation prompt first, and a
      second, repair prompt exactly after a failed first execution. */
  lemma ChatPrompts(oracle: Prompt -> OracleReply, db: string -> DbOutcome, pool: Pool, question: string)
    ensures var t := Chat(oracle, db, pool, question);
      && |t.executed| <= |t.prompts| <= 2
      && (question == [] <==> t.prompts == [])
      && (question == [] <==> t.response == NoQuestion)
      && (t.prompts != [] ==> t.prompts[0] == Gen(question))
      && (|t.prompts| == 2 <==> |t.executed| >= 1 && Execute(db, pool, t.executed[0]).0.ExecError?)
      && (|t.prompts| == 2 ==> t.prompts[1] == Repair(t.executed[0], Execute(db, pool, t.executed[0]).0.message))
  {
    var env := Wired(oracle, db);
    assert env.db == db;
  }

  /** Every query the route executes is left unchanged by the sanitizer, so
      cleaning is never the reason a query differs from what was validated. */
  lemma ExecutedAreFixpoints(oracle: Prompt -> OracleReply, db: string -> DbOutcome, pool: Pool, question: string, i: nat)
    requires i < |Chat(oracle, db, pool, question).executed|
    ensures var q := Chat(oracle, db, pool, question).executed[i];
      IsSafe(q) && Clean(q) == Some(q)
  {
    CleanShapeFixpoint(Chat(oracle, db, pool, question).executed[i]);
  }
}

=== FILE: route.dfy ===
/**
 * The control flow of the `/chat` route (main.py), generic in what it calls
 * out to: generate, validate, execute, and on a first execution failure run
 * exactly one repair cycle (repair prompt, clean, validate, execute).  The
 * language model, the sanitizer, the validator and the database are the
 * fields of an `Env`; `Orchestrator` instantiates them with this model's
 * sanitizer and validator.  A trace records the prompts sent and the queries
 * executed, in order.
 */
module Route {
  import opened Wrappers
  import opened Executor

  /** The two prompts, reduced to what they embed: the user question, or the
      failed query with the database's error text. */
  datatype Prompt =
    | Gen(question: string)
    | Repair(failedSql: string, error: string)

  /** What one oracle call yields: the `response` text field (empty when
      missing), or the message of an exception from the HTTP call or from
      decoding its body. */
  datatype OracleReply =
    | Reply(text: string)
    | OracleFailure(reason: string)

  /** What the route calls out to: the language model, the sanitizer, the
      validator and the database. */
  datatype Env = Env(
    oracle: Prompt -> OracleReply,
    clean: string -> Option<string>,
    safe: string -> bool,
    db: string -> DbOutcome)

  /** The JSON payloads of the route. */
  datatype Response =
    | NoQuestion
    | GenerationFailed
    | UnsafeBlocked
    | Answer(sql: string, result: seq<Record>, rowCount: nat, corrected: bool)
    | CouldNotFix
    | RepairFailed(error: string, originalSql: string)
  {
    /** The HTTP status the route pairs with the payload: success only for
        an answer, 400 for a refused request, 500 for a failed stage. */
    function Status(): (code: int)
      ensures code == 200 <==> this.Answer?
      ensures code == 400 <==> this.NoQuestion? || this.UnsafeBlocked?
      ensures code == 500 <==> this.GenerationFailed? || this.CouldNotFix? || this.RepairFailed?
    {
      match this
      case NoQuestion => 400
      case GenerationFailed => 500
      case UnsafeBlocked => 400
      case Answer(_, _, _, _) => 200
      case CouldNotFix => 500
      case RepairFailed(_, _) => 500
    }
  }

  /** One request: the response, the prompts sent to the oracle and the
      queries passed to `execute_query`, in order, and the pool afterwards. */
  datatype Trace = Trace(response: Response, prompts: seq<Prompt>, executed: seq<string>, pool: Pool)

  /** `generate_sql`: an oracle exception becomes `None`, a reply is cleaned. */
  function Generate(env: Env, question: string): Option<string> {
    match env.oracle(Gen(question))
    case OracleFailure(_) => None
    case Reply(text) => env.clean(text)
  }

  /** `q` is what the sanitizer made of the oracle's reply to `p`. */
  ghost predicate CleanedReply(env: Env, p: Prompt, q: string) {
    env.oracle(p).Reply? && env.clean(env.oracle(p).text) == Some(q)
  }

  /** The repair-stage rows of the route's outcome table, for a first query
      `sql` that failed with `error`: an oracle exception ends the request
      with that error and the original query; a repair the sanitizer drops or
      the validator refuses cannot be fixed; a validated repair is executed,
      and its success is a corrected answer while its failure reports its own
      error with the original query. */
  ghost predicate RepairOutcome(env: Env, pool: Pool, sql: string, error: string, t: Trace) {
    var reply := env.oracle(Repair(sql, error));
    && (reply.OracleFailure? ==> t.response == RepairFailed(reply.reason, sql) && t.executed == [sql])
    && (reply.Reply? && env.clean(reply.text).None? ==> t.response == CouldNotFix && t.executed == [sql])
    && (reply.Reply? && env.clean(reply.text).Some? ==>
          var fixed := env.clean(reply.text).value;
          var second := Execute(env.db, pool, fixed).0;
          && (!env.safe(fixed) ==> t.response == CouldNotFix && t.executed == [sql])
          && (env.safe(fixed) ==> t.executed == [sql, fixed])
          && (env.safe(fixed) && second.Rows? ==>
                t.response == Answer(fixed, second.records, |second.records|, true))
          && (env.safe(fixed) && second.ExecError? ==>
                t.response == RepairFailed(second.message, sql)))
  }

  /** The rows of the outcome table that follow a validated first query
      `sql`: it is executed; its success is an uncorrected answer with one
      execution, and its failure leads into the repair stage. */
  ghost predicate FirstOutcome(env: Env, pool: Pool, sql: string, t: Trace) {
    var first := Execute(env.db, pool, sql).0;
    && |t.executed| >= 1 && t.executed[0] == sql
    && (first.Rows? ==>
          t.response == Answer(sql, first.records, |first.records|, false) && t.executed == [sql])
    && (first.ExecError? ==> RepairOutcome(env, pool, sql, first.message, t))
  }

  /** The second execution, of a cleaned and validated repair. */
  function Reexecute(env: Env, pool: Pool, prompts: seq<Prompt>, sql: string, fixed: string): (t: Trace)
    ensures t.prompts == prompts && t.executed == [sql, fixed] && t.pool == pool
    ensures t.response.Answer? || t.response.RepairFailed?
    ensures t.response.RepairFailed? ==> t.response.originalSql == sql
    ensures t.response.Answer? ==> t.response.corrected && t.response.sql == fixed
    ensures t.response.Answer? ==> Execute(env.db, pool, fixed).0 == Rows(t.response.result)
    ensures t.response.Answer? ==> t.response.rowCount == |t.response.result|
    ensures var second := Execute(env.db, pool, fixed).0;
      && (second.Rows? ==> t.response == Answer(fixed, second.records, |second.records|, true))
      && (second.ExecError? ==> t.response == RepairFailed(second.message, sql))
  {
    var (res, after) := Execute(env.db, pool, fixed);
    match res
    case Rows(recs) => Trace(Answer(fixed, recs, |recs|, true), prompts, [sql, fixed], after)
    case ExecError(err) => Trace(RepairFailed(err, sql), prompts, [sql, fixed], after)
  }

  /** The repair cycle, entered after `sql` failed with `error`. */
  function RepairCycle(env: Env, pool: Pool, question: string, sql: string, error: string): (t: Trace)
    ensures t.prompts == [Gen(question), Repair(sql, error)] && t.pool == pool
    ensures 1 <= |t.executed| <= 2 && t.executed[0] == sql
    ensures |t.executed| == 2 ==> env.safe(t.executed[1]) && CleanedReply(env, t.prompts[1], t.executed[1])
    ensures t.response.Answer? || t.response.CouldNotFix? || t.response.RepairFailed?
    ensures t.response.RepairFailed? ==> t.response.originalSql == sql
    ensures t.response.CouldNotFix? ==> |t.executed| == 1
    ensures t.response.Answer? ==> |t.executed| == 2 && t.response.corrected && t.response.sql == t.executed[1]
    ensures t.response.Answer? ==> Execute(env.db, pool, t.response.sql).0 == Rows(t.response.result)
    ensures t.response.Answer? ==> t.response.rowCount == |t.response.result|
    ensures RepairOutcome(env, pool, sql, error, t)
  {
    var fix := Repair(sql, error);
    var prompts := [Gen(question), fix];
    match env.oracle(fix)
    case OracleFailure(reason) => Trace(RepairFailed(reason, sql), prompts, [sql], pool)
    case Reply(text) =>
      match env.clean(text)
      case None => Trace(CouldNotFix, prompts, [sql], pool)
      case Some(fixed) =>
        if !env.safe(fixed) then Trace(CouldNotFix, prompts, [sql], pool)
        else Reexecute(env, pool, prompts, sql, fixed)
  }

  /** Everything after a validated first query: execute it, and repair once
      on failure. */
  function FirstExecution(env: Env, pool: Pool, question: string, sql: string): (t: Trace)
    ensures 1 <= |t.executed| <= |t.prompts| <= 2 && t.executed[0] == sql && t.prompts[0] == Gen(question)
    ensures |t.executed| == 2 ==> env.safe(t.executed[1]) && CleanedReply(env, t.prompts[1], t.executed[1])
    ensures t.pool == pool
    ensures |t.prompts| == 2 <==> Execute(env.db, pool, sql).0.ExecError?
    ensures |t.prompts| == 2 ==> t.prompts[1] == Repair(sql, Execute(env.db, pool, sql).0.message)
    ensures t.response.Answer? || t.response.CouldNotFix? || t.response.RepairFailed?
    ensures t.response.RepairFailed? ==> |t.prompts| == 2 && t.response.originalSql == sql
    ensures t.response.CouldNotFix? ==> |t.prompts| == 2 && |t.executed| == 1
    ensures t.response.Answer? ==> t.response.sql == t.executed[|t.executed| - 1]
    ensures t.response.Answer? ==> Execute(env.db, pool, t.response.sql).0 == Rows(t.response.result)
    ensures t.response.Answer? ==> t.response.rowCount == |t.response.result|
    ensures t.response.Answer? ==> (t.response.corrected <==> |t.executed| == 2)
    ensures FirstOutcome(env, pool, sql, t)
  {
    var (res, after) := Execute(env.db, pool, sql);
    match res
    case Rows(recs) => Trace(Answer(sql, recs, |recs|, false), [Gen(question)], [sql], after)
    case ExecError(err) => RepairCycle(env, after, question, sql, err)
  }

  /** The decision logic of `chat`.  Every executed query passed the
      validator and is what the sanitizer made of the reply to the prompt at
      the same position; there are at most two executions and at most one
      repair prompt, which is sent only after the first execution failed and
      carries that query and its error; the pool ends as it started. */
  function Respond(env: Env, pool: Pool, question: string): (t: Trace)
    ensures |t.executed| <= |t.prompts| <= 2
    ensures forall i :: 0 <= i < |t.executed| ==>
      env.safe(t.executed[i]) && CleanedReply(env, t.prompts[i], t.executed[i])
    ensures t.pool == pool
    // an empty question is refused before any oracle call
    ensures question == [] <==> t.prompts == []
    ensures question == [] <==> t.response == NoQuestion
    ensures t.prompts != [] ==> t.prompts[0] == Gen(question)
    // generation failure and unsafe first queries end the request, unrepaired
    ensures question != [] && Generate(env, question).None? ==>
      t.response == GenerationFailed && t.executed == [] && |t.prompts| == 1
    ensures question != [] && Generate(env, question).Some? && !env.safe(Generate(env, question).value) ==>
      t.response == UnsafeBlocked && t.executed == [] && |t.prompts| == 1
    // a validated first query is executed, and the outcome table decides the rest
    ensures question != [] && Generate(env, question).Some? && env.safe(Generate(env, question).value) ==>
      FirstOutcome(env, pool, Generate(env, question).value, t)
    // a repair prompt follows exactly a failed first execution
    ensures |t.prompts| == 2 <==> |t.executed| >= 1 && Execute(env.db, pool, t.executed[0]).0.ExecError?
    ensures |t.prompts| == 2 ==> t.prompts[1] == Repair(t.executed[0], Execute(env.db, pool, t.executed[0]).0.message)
    // repair-stage errors carry the original query
    ensures t.response.RepairFailed? ==> |t.prompts| == 2 && t.response.originalSql == t.executed[0]
    ensures t.response.CouldNotFix? ==> |t.prompts| == 2 && |t.executed| == 1
    // a success reports the executed query, its records and their count
    ensures t.response.Answer? ==> |t.executed| >= 1 && t.response.sql == t.executed[|t.executed| - 1]
    ensures t.response.Answer? ==> Execute(env.db, pool, t.response.sql).0 == Rows(t.response.result)
    ensures t.response.Answer? ==> t.response.rowCount == |t.response.result|
    ensures t.response.Answer? ==> (t.response.corrected <==> |t.executed| == 2)
  {
    if question == [] then Trace(NoQuestion, [], [], pool)
    else
      match Generate(env, question)
      case None => Trace(GenerationFailed, [Gen(question)], [], pool)
      case Some(sql) =>
        if !env.safe(sql) then Trace(UnsafeBlocked, [Gen(question)], [], pool)
        else FirstExecution(env, pool, question, sql)
  }

  /** A response refused with status 400 never reached the database, a
      failed request that did reach it went through the repair prompt, and
      status 200 is exactly an answer. */
  lemma StatusReflectsStage(env: Env, pool: Pool, question: string)
    ensures var t := Respond(env, pool, question);
      && (t.response.Status() == 400 ==> t.executed == [])
      && (t.response.Status() == 500 && t.executed != [] ==> |t.prompts| == 2)
      && (t.response.Status() == 200 <==> t.response.Answer?)
  {
    if question != [] && Generate(env, question).Some? {
      var sql := Generate(env, question).value;
      if env.safe(sql) {
        var t := FirstExecution(env, pool, question, sql);
        assert t.response.Answer? || t.response.CouldNotFix? || t.response.RepairFailed?;
      }
    }
  }

  // ---------------------------------------------------------------------------
  // The route as a state machine, one stage per step.  It is an independent
  // small-step reading of the same control flow; `RunAgreesWithRespond`
  // shows the two coincide, and `RunKeepsSafe` proves on the machine alone
  // that no query reaches the database without passing the validator.
  // ---------------------------------------------------------------------------

  datatype Phase =
    | Received(question: string)
    | Generating(question: string)
    | Validating(question: string, sql: string)
    | Executing(question: string, sql: string)
    | Repairing(question: string, sql: string, error: string)
    | Revalidating(question: string, sql: string, error: string, fixed: string)
    | Reexecuting(question: string, sql: string, error: string, fixed: string)
    | Done(response: Response)

  datatype Machine = Machine(phase: Phase, prompts: seq<Prompt>, executed: seq<string>, pool: Pool)

  function Start(pool: Pool, question: string): Machine {
    Machine(Received(question), [], [], pool)
  }

  /** One stage of the route. */
  function Step(env: Env, m: Machine): (n: Machine)
    ensures n.pool == m.pool
    ensures |m.executed| <= |n.executed| <= |m.executed| + 1 && n.executed[..|m.executed|] == m.executed
  {
    match m.phase
    case Received(q) =>
      if q == [] then m.(phase := Done(NoQuestion)) else m.(phase := Generating(q))
    case Generating(q) =>
      var sent := m.prompts + [Gen(q)];
      (match env.oracle(Gen(q))
       case OracleFailure(_) => m.(phase := Done(GenerationFailed), prompts := sent)
       case Reply(text) =>
         match env.clean(text)
         case None => m.(phase := Done(GenerationFailed), prompts := sent)
         case Some(sql) => m.(phase := Validating(q, sql), prompts := sent))
    case Validating(q, sql) =>
      if env.safe(sql) then m.(phase := Executing(q, sql)) else m.(phase := Done(UnsafeBlocked))
    case Executing(q, sql) =>
      var (res, after) := Execute(env.db, m.pool, sql);
      var ran := m.(executed := m.executed + [sql], pool := after);
      (match res
       case Rows(recs) => ran.(phase := Done(Answer(sql, recs, |recs|, false)))
       case ExecError(err) => ran.(phase := Repairing(q, sql, err)))
    case Repairing(q, sql, err) =>
      var sent := m.prompts + [Repair(sql, err)];
      (match env.oracle(Repair(sql, err))
       case OracleFailure(reason) => m.(phase := Done(RepairFailed(reason, sql)), prompts := sent)
       case Reply(text) =>
         match env.clean(text)
         case None => m.(phase := Done(CouldNotFix), prompts := sent)
         case Some(fixed) => m.(phase := Revalidating(q, sql, err, fixed), prompts := sent))
    case Revalidating(q, sql, err, fixed) =>
      if env.safe(fixed) then m.(phase := Reexecuting(q, sql, err, fixed)) else m.(phase := Done(CouldNotFix))
    case Reexecuting(q, sql, err, fixed) =>
      var (res, after) := Execute(env.db, m.pool, fixed);
      var ran := m.(executed := m.executed + [fixed], pool := after);
      (match res
       case Rows(recs) => ran.(phase := Done(Answer(fixed, recs, |recs|, true)))
       case ExecError(e2) => ran.(phase := Done(RepairFailed(e2, sql))))
    case Done(_) => m
  }

  /** Up to `fuel` steps, stopping at `Done`. */
  function Run(env: Env, m: Machine, fuel: nat): Machine
    decreases fuel
  {
    if fuel == 0 || m.phase.Done? then m else Run(env, Step(env, m), fuel - 1)
  }

  /** The machine's safety invariant: everything executed so far, and any
      query about to be executed, passed the validator. */
  ghost predicate SafeMachine(env: Env, m: Machine) {
    && (forall i :: 0 <= i < |m.executed| ==> env.safe(m.executed[i]))
    && (m.phase.Executing? ==> env.safe(m.phase.sql))
    && (m.phase.Reexecuting? ==> env.safe(m.phase.fixed))
  }

  lemma StepKeepsSafe(env: Env, m: Machine)
    requires SafeMachine(env, m)
    ensures SafeMachine(env, Step(env, m))
  {
    var n := Step(env, m);
    forall i | 0 <= i < |n.executed|
      ensures env.safe(n.executed[i])
    {
      if i < |m.executed| {
        assert n.executed[i] == n.executed[..|m.executed|][i];
      }
    }
  }

  lemma {:induction false} RunKeepsSafe(env: Env, m: Machine, fuel: nat)
    requires SafeMachine(env, m)
    ensures SafeMachine(env, Run(env, m, fuel))
    decreases fuel
  {
    if fuel > 0 && !m.phase.Done? {
      StepKeepsSafe(env, m);
      RunKeepsSafe(env, Step(env, m), fuel - 1);
    }
  }

  /** No query reaches the database without passing the validator, proved on
      the machine with no appeal to `Respond`'s contract. */
  lemma MachineExecutesOnlySafe(env: Env, pool: Pool, question: string, fuel: nat)
    ensures var m := Run(env, Start(pool, question), fuel);
      forall i :: 0 <= i < |m.executed| ==> env.safe(m.executed[i])
  {
    RunKeepsSafe(env, Start(pool, question), fuel);
  }

  /** The machine state in which a trace ends. */
  function Settled(t: Trace): Machine {
    Machine(Done(t.response), t.prompts, t.executed, t.pool)
  }

  lemma RunFromReexecuting(env: Env, m: Machine, fuel: nat)
    requires m.phase.Reexecuting? && m.executed == [m.phase.sql] && fuel >= 1
    ensures Run(env, m, fuel) == Settled(Reexecute(env, m.pool, m.prompts, m.phase.sql, m.phase.fixed))
  {
    assert Run(env, m, fuel) == Run(env, Step(env, m), fuel - 1);
  }

  lemma RunFromRepairing(env: Env, m: Machine, fuel: nat)
    requires m.phase.Repairing?
    requires m.prompts == [Gen(m.phase.question)] && m.executed == [m.phase.sql] && fuel >= 3
    ensures Run(env, m, fuel) == Settled(RepairCycle(env, m.pool, m.phase.question, m.phase.sql, m.phase.error))
  {
    var n := Step(env, m);
    assert Run(env, m, fuel) == Run(env, n, fuel - 1);
    if n.phase.Revalidating? {
      var n2 := Step(env, n);
      assert Run(env, n, fuel - 1) == Run(env, n2, fuel - 2);
      if n2.phase.Reexecuting? {
        RunFromReexecuting(env, n2, fuel - 2);
      }
    }
  }

  lemma RunFromExecuting(env: Env, m: Machine, fuel: nat)
    requires m.phase.Executing?
    requires m.prompts == [Gen(m.phase.question)] && m.executed == [] && fuel >= 4
    ensures Run(env, m, fuel) == Settled(FirstExecution(env, m.pool, m.phase.question, m.phase.sql))
  {
    var n := Step(env, m);
    assert Run(env, m, fuel) == Run(env, n, fuel - 1);
    if n.phase.Repairing? {
      RunFromRepairing(env, n, fuel - 1);
    }
  }

  /** Seven stages suffice for the longest path (received, generating,
      validating, executing, repairing, revalidating, re-executing), and the
      machine ends exactly where `Respond` does. */
  lemma RunAgreesWithRespond(env: Env, pool: Pool, question: string)
    ensures Run(env, Start(pool, question), 7) == Settled(Respond(env, pool, question))
  {
    var m0 := Start(pool, question);
    var m1 := Step(env, m0);
    assert Run(env, m0, 7) == Run(env, m1, 6);
    if question != [] {
      var m2 := Step(env, m1);
      assert Run(env, m1, 6) == Run(env, m2, 5);
      if m2.phase.Validating? {
        var m3 := Step(env, m2);
        assert Run(env, m2, 5) == Run(env, m3, 4);
        if m3.phase.Executing? {
          RunFromExecuting(env, m3, 4);
        }
      }
    }
  }
}

=== FILE: sanitizer.dfy ===
/**
 * `clean_sql_output` (main.py): turns untrusted language-model text into a
 * candidate query.  The pipeline is
 *   raw --Unfence--> t --first `select`, cut at `;`, strip--> statement
 *       --RenameTable--> renamed --AddLimit--> query.
 */
module Sanitizer {
  import opened Wrappers
  import opened Text

  /** `TABLE_NAME`: the canonical relation (a view over three partitions). */
  const Table := "students"
  /** The informal singular the model tends to write instead of `Table`. */
  const EntityWord := "student"
  const LimitClause := " LIMIT 50"
  /** The language-tagged code fence removed before the bare one. */
  const SqlFence := Fence + "sql"

  /** Every character of `w` is a lowercase ASCII letter. */
  predicate IsLowerWord(w: string) {
    forall k :: 0 <= k < |w| ==> 'a' <= w[k] <= 'z'
  }

  /** If `s` lowercases to a word of lowercase letters, every character of
      `s` is a word character, and so neither a space nor a `;` nor a backtick. */
  lemma LowersToLetters(s: string, w: string)
    requires IsLowerWord(w) && Lower(s) == w
    ensures forall k :: 0 <= k < |s| ==> IsWordChar(s[k]) && !IsSpace(s[k])
  {
    forall k | 0 <= k < |s|
      ensures IsWordChar(s[k]) && !IsSpace(s[k])
    {
      assert Lower(s)[k] == LowerChar(s[k]);
      LowerKeepsClass(s[k]);
    }
  }

  // ---------------------------------------------------------------------
  // Step 1: drop code fences and surrounding whitespace
  // ---------------------------------------------------------------------

  /** `raw.replace("```sql", "").replace("```", "").strip()`. */
  function Unfence(raw: string): string {
    Strip(RemoveAll(RemoveAll(raw, SqlFence), Fence))
  }

  /** No code fence survives `Unfence`. */
  lemma UnfenceHasNoFence(raw: string)
    ensures !Contains(Unfence(raw), Fence)
  {
    var v := RemoveAll(raw, SqlFence);
    NoFenceAfterRemoval(v);
    StripKeepsAbsence(RemoveAll(v, Fence), Fence);
  }

  // ---------------------------------------------------------------------
  // Step 2: `re.search(r"(select[\s\S]+)", t, re.IGNORECASE)`
  // ---------------------------------------------------------------------

  /** The regex matches at `i`: `select` in any case, then at least one more
      character (`[\s\S]+` accepts any character, newlines included). */
  predicate SelectMatch(t: string, i: int) {
    0 <= i && i + |Keyword| < |t| && Lower(t[i..i + |Keyword|]) == Keyword
  }

  ghost predicate HasSelect(t: string) {
    exists i :: SelectMatch(t, i)
  }

  /** The leftmost match position at or after `k`, as `re.search` scans. */
  function FindSelectFrom(t: string, k: nat): (r: Option<nat>)
    requires k <= |t|
    ensures r.Some? ==> k <= r.value && SelectMatch(t, r.value)
    ensures forall j :: k <= j && (r.None? || j < r.value) ==> !SelectMatch(t, j)
    decreases |t| - k
  {
    if k + |Keyword| >= |t| then None
    else if Lower(t[k..k + |Keyword|]) == Keyword then Some(k)
    else FindSelectFrom(t, k + 1)
  }

  function FindSelect(t: string): (r: Option<nat>)
    ensures r.None? <==> !HasSelect(t)
    ensures r.Some? ==> SelectMatch(t, r.value) && forall j :: 0 <= j < r.value ==> !SelectMatch(t, j)
  {
    FindSelectFrom(t, 0)
  }

  // ---------------------------------------------------------------------
  // Step 3: `.split(";")[0].strip()`
  // ---------------------------------------------------------------------

  /** `s.split(";")[0]`: the longest prefix of `s` without a `;`. */
  function UpToSemicolon(s: string): (r: string)
    ensures |r| <= |s| && r == s[..|r|]
    ensures ';' !in r
    ensures |r| == |s| || s[|r|] == ';'
    decreases |s|
  {
    if s == [] || s[0] == ';' then [] else [s[0]] + UpToSemicolon(s[1..])
  }

  /** `p` is the statement of `t` that starts at the match `i`: it is the text
      of `t` from `i` on, it begins with the keyword, holds no `;`, ends in a
      non-space character, and only whitespace separates it from the first
      `;` after it (or from the end of `t`). */
  ghost predicate StatementAt(t: string, i: nat, p: string) {
    && i + |p| <= |t|
    && p == t[i..i + |p|]
    && StartsWithKeyword(p)
    && ';' !in p
    && !IsSpace(p[|p| - 1])
    && BlankUpToSemicolon(t, i, i + |p|)
  }

  /** `p` starts with `select` in any case. */
  predicate StartsWithKeyword(p: string) {
    |p| >= |Keyword| && Lower(p[..|Keyword|]) == Keyword
  }

  /** From `k` to the first `;` after `i` (or to the end) `t` holds only
      whitespace. */
  ghost predicate BlankUpToSemicolon(t: string, i: nat, k: nat)
    requires i <= |t|
  {
    var j := NextSemicolon(t, i); i <= k <= j && AllSpace(t[k..j])
  }

  /** The index of the first `;` at or after `i`, or `|t|` if there is none. */
  function NextSemicolon(t: string, i: nat): (j: nat)
    requires i <= |t|
    ensures i <= j <= |t|
    ensures ';' !in t[i..j]
    ensures j == |t| || t[j] == ';'
  {
    var u := UpToSemicolon(t[i..]);
    assert t[i..i + |u|] == u;
    i + |u|
  }

  /** The cut at the first `;` keeps a `;`-free prefix. */
  lemma {:induction false} CutKeepsPrefix(s: string, m: nat)
    requires m <= |s| && ';' !in s[..m]
    ensures |UpToSemicolon(s)| >= m
    decreases m
  {
    if m > 0 {
      assert s[0] == s[..m][0];
      assert s[1..][..m - 1] == s[..m][1..];
      CutKeepsPrefix(s[1..], m - 1);
    }
  }

  /** Cutting at the first `;` keeps the matched keyword, whose characters
      are letters. */
  lemma CutKeepsKeyword(t: string, i: nat)
    requires SelectMatch(t, i)
    ensures var u := UpToSemicolon(t[i..]);
      && |u| >= |Keyword| && u[..|Keyword|] == t[i..i + |Keyword|]
      && forall k :: 0 <= k < |Keyword| ==> !IsSpace(u[k])
  {
    var kw := t[i..i + |Keyword|];
    var s := t[i..];
    var u := UpToSemicolon(s);
    LowersToLetters(kw, Keyword);
    assert s[..|Keyword|] == kw;
    assert ';' !in kw;
    CutKeepsPrefix(s, |Keyword|);
    assert u[..|Keyword|] == kw;
    forall k | 0 <= k < |Keyword|
      ensures !IsSpace(u[k])
    {
      assert u[k] == kw[k];
    }
  }

  /** Stripping a string that starts with six non-space characters only
      removes trailing whitespace and keeps those six. */
  lemma StripKeepsHead(u: string)
    requires |u| >= |Keyword|
    requires forall k :: 0 <= k < |Keyword| ==> !IsSpace(u[k])
    ensures var p := Strip(u);
      |p| >= |Keyword| && p == u[..|p|] && AllSpace(u[|p|..])
  {
    var lo := StripShape(u);
    var p := Strip(u);
    assert !IsSpace(u[0]);
    assert lo == 0;
    assert !IsSpace(u[|Keyword| - 1]);
    assert |p| >= |Keyword|;
  }

  /** What follows the stripped statement up to the terminator is blank. */
  lemma StatementEnd(t: string, i: nat)
    requires SelectMatch(t, i)
    ensures var p := Strip(UpToSemicolon(t[i..]));
      BlankUpToSemicolon(t, i, i + |p|)
  {
    var u := UpToSemicolon(t[i..]);
    CutKeepsKeyword(t, i);
    StripKeepsHead(u);
    BlankAfterCut(t, i, |Strip(u)|);
  }

  /** Blanks at the end of the cut text are blanks up to the terminator. */
  lemma BlankAfterCut(t: string, i: nat, k: nat)
    requires i <= |t| && k <= |UpToSemicolon(t[i..])| && AllSpace(UpToSemicolon(t[i..])[k..])
    ensures BlankUpToSemicolon(t, i, i + k)
  {
    SuffixOfPrefix(t, i, UpToSemicolon(t[i..]), k);
  }

  /** The stripped statement is the slice of `t` that starts at the match. */
  lemma StatementIsSlice(t: string, i: nat)
    requires SelectMatch(t, i)
    ensures var p := Strip(UpToSemicolon(t[i..]));
      |p| >= |Keyword| && i + |p| <= |t| && p == t[i..i + |p|]
  {
    var u := UpToSemicolon(t[i..]);
    CutKeepsKeyword(t, i);
    StripKeepsHead(u);
    PrefixOfSuffix(t, i, u, Strip(u));
  }

  lemma StatementFacts(t: string, i: nat)
    requires SelectMatch(t, i)
    ensures StatementAt(t, i, Strip(UpToSemicolon(t[i..])))
  {
    var u := UpToSemicolon(t[i..]);
    var p := Strip(u);
    CutKeepsKeyword(t, i);
    StripKeepsHead(u);
    assert ';' !in p by {
      assert p == u[..|p|];
    }
    StatementIsSlice(t, i);
    assert StartsWithKeyword(p) by {
      assert p[..|Keyword|] == t[i..i + |Keyword|];
    }
    StatementEnd(t, i);
  }

  /** The statement is a slice, so a pattern absent from the text is absent
      from the statement. */
  lemma StatementKeepsAbsence(t: string, i: nat, p: string, pat: string)
    requires StatementAt(t, i, p) && !Contains(t, pat)
    ensures !Contains(p, pat)
  {
    SliceKeepsAbsence(t, i, i + |p|, p, pat);
  }

  /** The statement cut from fence-free text has no fence either. */
  lemma StatementHasNoFence(t: string, i: nat)
    requires SelectMatch(t, i) && !Contains(t, Fence)
    ensures !Contains(Strip(UpToSemicolon(t[i..])), Fence)
  {
    StatementFacts(t, i);
    StatementKeepsAbsence(t, i, Strip(UpToSemicolon(t[i..])), Fence);
  }

  /** Steps 1 to 3: the statement `clean_sql_output` works on before the
      rename and the LIMIT injection. `None` exactly when the input is empty
      or the unfenced text has no `select` followed by a character. */
  function Extract(raw: string): (r: Option<string>)
    ensures r.None? <==> raw == [] || !HasSelect(Unfence(raw))
    ensures r.Some? ==> FindSelect(Unfence(raw)).Some?
    ensures r.Some? ==> StatementAt(Unfence(raw), FindSelect(Unfence(raw)).value, r.value)
    ensures r.Some? ==> !Contains(r.value, Fence)
  {
    if raw == [] then None
    else
      var t := Unfence(raw);
      match FindSelect(t)
      case None => None
      case Some(i) =>
        UnfenceHasNoFence(raw);
        StatementFacts(t, i);
        StatementHasNoFence(t, i);
        Some(Strip(UpToSemicolon(t[i..])))
  }

  // ---------------------------------------------------------------------
  // Step 4: `re.sub(r"\bstudent\b", TABLE_NAME, sql, flags=re.IGNORECASE)`
  // ---------------------------------------------------------------------

  /** Length of the maximal run of word characters that starts `s`. */
  function WordLen(s: string): (n: nat)
    ensures n <= |s|
    ensures forall k :: 0 <= k < n ==> IsWordChar(s[k])
    ensures n == |s| || !IsWordChar(s[n])
    decreases |s|
  {
    if |s| > 0 && IsWordChar(s[0]) then 1 + WordLen(s[1..]) else 0
  }

  /** The word run is determined by the two properties `WordLen` ensures. */
  lemma WordLenUnique(s: string, n: nat)
    requires n <= |s|
    requires forall k :: 0 <= k < n ==> IsWordChar(s[k])
    requires n == |s| || !IsWordChar(s[n])
    ensures WordLen(s) == n
  {
    var m := WordLen(s);
    assert m <= n by {
      if n < |s| {
        assert !IsWordChar(s[n]);
      }
    }
    assert n <= m by {
      if m < |s| {
        assert !IsWordChar(s[m]);
      }
    }
  }

  predicate IsEntity(w: string) {
    Lower(w) == EntityWord
  }

  /** The substitution, read token by token.  `\b` before `s` needs a
      non-word predecessor and `\b` after `t` a non-word successor, so the
      pattern matches exactly the maximal word runs that lowercase to
      `student`; every other character is copied. */
  function RenameTable(s: string): string
    decreases |s|
  {
    if s == [] then []
    else if !IsWordChar(s[0]) then [s[0]] + RenameTable(s[1..])
    else
      var n := WordLen(s);
      (if IsEntity(s[..n]) then Table else s[..n]) + RenameTable(s[n..])
  }

  /** The replacement for the word run at the head of `s`. */
  function HeadWord(s: string): (w: string)
    requires s != [] && IsWordChar(s[0])
    ensures |w| > 0 && forall k :: 0 <= k < |w| ==> IsWordChar(w[k])
    ensures RenameTable(s) == w + RenameTable(s[WordLen(s)..])
  {
    var n := WordLen(s);
    if IsEntity(s[..n]) then Table else s[..n]
  }

  /** The text after a word run renames to nothing or to a non-word head. */
  lemma RenameTail(s: string)
    requires s == [] || !IsWordChar(s[0])
    ensures RenameTable(s) == [] || !IsWordChar(RenameTable(s)[0])
  {
  }

  /** A whole-word, case-insensitive `student` at index `i` of `s`. */
  ghost predicate WholeWordAt(s: string, i: int) {
    && 0 <= i && i + |EntityWord| <= |s|
    && Lower(s[i..i + |EntityWord|]) == EntityWord
    && (i == 0 || !IsWordChar(s[i - 1]))
    && (i + |EntityWord| == |s| || !IsWordChar(s[i + |EntityWord|]))
  }

  ghost predicate HasEntityWord(s: string) {
    exists i :: WholeWordAt(s, i)
  }

  /** The seven characters of a whole-word match are word characters. */
  lemma EntityLetters(s: string, i: int)
    ensures WholeWordAt(s, i) ==> forall k :: i <= k < i + |EntityWord| ==> IsWordChar(s[k])
  {
    if WholeWordAt(s, i) {
      var w := s[i..i + |EntityWord|];
      LowersToLetters(w, EntityWord);
      assert forall k :: i <= k < i + |EntityWord| ==> s[k] == w[k - i];
    }
  }

  /** A match in `c + x` past `c` is a match in `x`. */
  lemma ShiftDown(c: string, x: string, i: int)
    requires i >= |c|
    ensures WholeWordAt(c + x, i) ==> WholeWordAt(x, i - |c|)
  {
    if WholeWordAt(c + x, i) {
      var j := i - |c|;
      assert (c + x)[i..i + |EntityWord|] == x[j..j + |EntityWord|];
      if j > 0 {
        assert (c + x)[i - 1] == x[j - 1];
      }
      if i + |EntityWord| < |c + x| {
        assert (c + x)[i + |EntityWord|] == x[j + |EntityWord|];
      }
    }
  }

  /** A match in `x` stays a match in `c + x` unless it is glued to a word
      character at the end of `c`. */
  lemma ShiftUp(c: string, x: string, j: int)
    requires j > 0 || c == [] || !IsWordChar(c[|c| - 1])
    ensures WholeWordAt(x, j) ==> WholeWordAt(c + x, |c| + j)
  {
    if WholeWordAt(x, j) {
      var i := |c| + j;
      assert (c + x)[i..i + |EntityWord|] == x[j..j + |EntityWord|];
      if i > 0 {
        assert (c + x)[i - 1] == if j > 0 then x[j - 1] else c[|c| - 1];
      }
      if i + |EntityWord| < |c + x| {
        assert (c + x)[i + |EntityWord|] == x[j + |EntityWord|];
      }
    }
  }

  /** After the rename no whole-word `student` is left, in any case. */
  lemma {:induction false} RenameLeavesNoEntityWord(s: string)
    ensures !HasEntityWord(RenameTable(s))
    decreases |s|
  {
    var r := RenameTable(s);
    if s == [] {
    } else if !IsWordChar(s[0]) {
      RenameLeavesNoEntityWord(s[1..]);
      var x := RenameTable(s[1..]);
      assert r == [s[0]] + x;
      forall i ensures !WholeWordAt(r, i) {
        EntityLetters(r, i);
        if i >= 1 {
          ShiftDown([s[0]], x, i);
        } else {
          assert r[0] == s[0];
        }
      }
    } else {
      var n := WordLen(s);
      var w := HeadWord(s);
      RenameLeavesNoEntityWord(s[n..]);
      var x := RenameTable(s[n..]);
      RenameTail(s[n..]);
      assert r == w + x;
      forall i ensures !WholeWordAt(r, i) {
        EntityLetters(r, i);
        if i >= |w| {
          ShiftDown(w, x, i);
        } else if i > 0 {
          assert r[i - 1] == w[i - 1];
        } else if |w| > |EntityWord| {
          assert r[|EntityWord|] == w[|EntityWord|];
        } else if |w| == |EntityWord| {
          assert w == s[..n];
          assert r[..|EntityWord|] == w;
        } else if |r| > |w| {
          assert r[|w|] == x[0];
        }
      }
    }
  }

  /** The rename changes nothing in a text without a whole-word `student`. */
  lemma {:induction false} RenameIdentity(s: string)
    requires !HasEntityWord(s)
    ensures RenameTable(s) == s
    decreases |s|
  {
    if s == [] {
    } else if !IsWordChar(s[0]) {
      NoEntityPastSeparator(s);
      RenameIdentity(s[1..]);
      RenameSeparator(s);
      assert [s[0]] + s[1..] == s;
    } else {
      NoEntityPastWord(s);
      RenameIdentity(s[WordLen(s)..]);
      RenameKeptWord(s);
    }
  }

  /** A leading non-word character is copied. */
  lemma RenameSeparator(s: string)
    requires s != [] && !IsWordChar(s[0])
    ensures RenameTable(s) == [s[0]] + RenameTable(s[1..])
  {
  }

  /** A leading word run other than `student` is copied. */
  lemma RenameKeptWord(s: string)
    requires s != [] && IsWordChar(s[0]) && !IsEntity(s[..WordLen(s)])
    requires RenameTable(s[WordLen(s)..]) == s[WordLen(s)..]
    ensures RenameTable(s) == s
  {
    var n := WordLen(s);
    var w := HeadWord(s);
    assert w == s[..n];
    JoinAtSplit(s, n, w, RenameTable(s[n..]));
  }

  /** Dropping a leading non-word character keeps `student` absent. */
  lemma NoEntityPastSeparator(s: string)
    requires s != [] && !IsWordChar(s[0]) && !HasEntityWord(s)
    ensures !HasEntityWord(s[1..])
  {
    forall j ensures !WholeWordAt(s[1..], j) {
      ShiftUp([s[0]], s[1..], j);
      assert [s[0]] + s[1..] == s;
    }
  }

  /** Without a whole-word `student`, the head word run is not the entity
      and the rest of the text has none either. */
  lemma NoEntityPastWord(s: string)
    requires s != [] && IsWordChar(s[0]) && !HasEntityWord(s)
    ensures !IsEntity(s[..WordLen(s)])
    ensures !HasEntityWord(s[WordLen(s)..])
  {
    var n := WordLen(s);
    assert !WholeWordAt(s, 0);
    assert s[0..n] == s[..n];
    forall j ensures !WholeWordAt(s[n..], j) {
      EntityLetters(s[n..], j);
      if j > 0 {
        ShiftUp(s[..n], s[n..], j);
        assert s[..n] + s[n..] == s;
      }
    }
  }

  /** Renaming twice is renaming once. */
  lemma RenameIdempotent(s: string)
    ensures RenameTable(RenameTable(s)) == RenameTable(s)
  {
    RenameLeavesNoEntityWord(s);
    RenameIdentity(RenameTable(s));
  }

  /** Text that starts with a non-word character renames piecewise. */
  lemma {:induction false} RenameAppend(a: string, b: string)
    requires b != [] && !IsWordChar(b[0])
    ensures RenameTable(a + b) == RenameTable(a) + RenameTable(b)
    decreases |a|
  {
    if a == [] {
      assert a + b == b;
    } else if !IsWordChar(a[0]) {
      assert (a + b)[1..] == a[1..] + b;
      RenameAppend(a[1..], b);
    } else {
      var n := WordLen(a);
      WordRunOfAppend(a, b);
      RenameAppend(a[n..], b);
    }
  }

  /** Appending text that starts with a non-word character leaves the head
      word run of `a` as it is. */
  lemma WordRunOfAppend(a: string, b: string)
    requires a != [] && IsWordChar(a[0]) && b != [] && !IsWordChar(b[0])
    ensures WordLen(a + b) == WordLen(a)
    ensures (a + b)[..WordLen(a)] == a[..WordLen(a)]
    ensures (a + b)[WordLen(a)..] == a[WordLen(a)..] + b
  {
    var n := WordLen(a);
    var ab := a + b;
    WordLenOfAppend(a, b);
    assert ab[..n] == a[..n];
    assert ab[n..] == a[n..] + b;
  }

  lemma WordLenOfAppend(a: string, b: string)
    requires b != [] && !IsWordChar(b[0])
    ensures WordLen(a + b) == WordLen(a)
  {
    var n := WordLen(a);
    var ab := a + b;
    forall k | 0 <= k < n
      ensures IsWordChar(ab[k])
    {
      assert ab[k] == a[k];
    }
    if n < |a| {
      assert ab[n] == a[n];
    } else {
      assert ab[n] == b[0];
    }
    WordLenUnique(ab, n);
  }

  /** The rename keeps a leading `select`: its word run is not `student`. */
  lemma RenameKeepsKeyword(s: string)
    requires StartsWithKeyword(s)
    ensures |RenameTable(s)| >= |Keyword|
    ensures RenameTable(s)[..|Keyword|] == s[..|Keyword|]
  {
    LowersToLetters(s[..|Keyword|], Keyword);
    assert forall k :: 0 <= k < |Keyword| ==> IsWordChar(s[k]) by {
      assert forall k :: 0 <= k < |Keyword| ==> s[k] == s[..|Keyword|][k];
    }
    var n := WordLen(s);
    assert Lower(s[..n])[1] == Lower(s[..|Keyword|])[1] == 'e';
    assert !IsEntity(s[..n]);
  }

  /** The rename keeps a non-space last character non-space. */
  lemma {:induction false} RenameKeepsLast(s: string)
    requires s != [] && !IsSpace(s[|s| - 1])
    ensures RenameTable(s) != [] && !IsSpace(RenameTable(s)[|RenameTable(s)| - 1])
    decreases |s|
  {
    if !IsWordChar(s[0]) {
      if |s| > 1 {
        RenameKeepsLast(s[1..]);
        LastOfJoin([s[0]], RenameTable(s[1..]));
      } else {
        assert s[1..] == [];
      }
    } else {
      var n := WordLen(s);
      var w := HeadWord(s);
      if n < |s| {
        RenameKeepsLast(s[n..]);
        LastOfJoin(w, RenameTable(s[n..]));
      } else {
        assert s[n..] == [];
        assert IsWordChar(w[|w| - 1]);
      }
    }
  }

  /** The rename writes no `;`: it copies characters or writes `Table`. */
  lemma {:induction false} RenameNoSemicolon(s: string)
    requires ';' !in s
    ensures ';' !in RenameTable(s)
    decreases |s|
  {
    if s == [] {
    } else if !IsWordChar(s[0]) {
      RenameNoSemicolon(s[1..]);
    } else {
      var n := WordLen(s);
      var w := HeadWord(s);
      RenameNoSemicolon(s[n..]);
    }
  }

  /** The renamed text starts with a word character exactly when the
      original does. */
  lemma RenameHeadClass(s: string)
    requires s != []
    ensures RenameTable(s) != []
    ensures IsWordChar(RenameTable(s)[0]) <==> IsWordChar(s[0])
  {
    if IsWordChar(s[0]) {
      var w := HeadWord(s);
    }
  }

  predicate AllNonWord(u: string) {
    forall k :: 0 <= k < |u| ==> !IsWordChar(u[k])
  }

  /** A non-word prefix of the renamed text is a prefix of the original. */
  lemma {:induction false} NonWordPrefix(s: string, u: string)
    requires AllNonWord(u)
    requires |u| <= |RenameTable(s)| && RenameTable(s)[..|u|] == u
    ensures |u| <= |s| && s[..|u|] == u
    decreases |s|
  {
    if u != [] {
      RenameHeadClass(s);
      assert !IsWordChar(s[0]) by {
        assert RenameTable(s)[0] == u[0];
      }
      {
        var x := RenameTable(s[1..]);
        assert RenameTable(s) == [s[0]] + x;
        assert x[..|u| - 1] == u[1..];
        NonWordPrefix(s[1..], u[1..]);
        assert s[..|u|] == [s[0]] + s[1..][..|u| - 1];
      }
    }
  }

  /** An occurrence of a non-word pattern in `w + x`, with `w` a word,
      lies inside `x`. */
  lemma NonWordPastWord(w: string, x: string, pat: string, i: int)
    requires forall k :: 0 <= k < |w| ==> IsWordChar(w[k])
    requires pat != [] && AllNonWord(pat)
    requires OccursAt(w + x, pat, i)
    ensures i >= |w| && OccursAt(x, pat, i - |w|)
  {
    var r := w + x;
    assert r[i] == r[i..i + |pat|][0] == pat[0];
    OccursPastPrefix(w, x, pat, i);
  }

  /** The rename creates no occurrence of a pattern of non-word characters. */
  lemma {:induction false} RenameCreatesNoNonWord(s: string, pat: string, i: int) returns (j: int)
    requires pat != [] && AllNonWord(pat)
    requires OccursAt(RenameTable(s), pat, i)
    ensures OccursAt(s, pat, j)
    decreases |s|
  {
    if i == 0 {
      assert RenameTable(s)[..|pat|] == pat;
      NonWordPrefix(s, pat);
      j := 0;
    } else if !IsWordChar(s[0]) {
      SeparatorStep(s, pat, i);
      var j' := RenameCreatesNoNonWord(s[1..], pat, i - 1);
      OccursInSuffix(s, 1, pat, j');
      j := j' + 1;
    } else {
      WordStep(s, pat, i);
      var n := WordLen(s);
      var j' := RenameCreatesNoNonWord(s[n..], pat, i - |HeadWord(s)|);
      OccursInSuffix(s, n, pat, j');
      j := n + j';
    }
  }

  /** An occurrence past a copied separator lies in the rest's rename. */
  lemma SeparatorStep(s: string, pat: string, i: int)
    requires s != [] && !IsWordChar(s[0]) && i > 0
    requires pat != [] && AllNonWord(pat)
    requires OccursAt(RenameTable(s), pat, i)
    ensures OccursAt(RenameTable(s[1..]), pat, i - 1)
  {
    RenameSeparator(s);
    OccursPastPrefix([s[0]], RenameTable(s[1..]), pat, i);
  }

  /** An occurrence of a non-word pattern lies past the head word's
      replacement. */
  lemma WordStep(s: string, pat: string, i: int)
    requires s != [] && IsWordChar(s[0])
    requires pat != [] && AllNonWord(pat)
    requires OccursAt(RenameTable(s), pat, i)
    ensures i >= |HeadWord(s)| && OccursAt(RenameTable(s[WordLen(s)..]), pat, i - |HeadWord(s)|)
  {
    NonWordPastWord(HeadWord(s), RenameTable(s[WordLen(s)..]), pat, i);
  }

  /** In particular the rename cannot create a code fence. */
  lemma RenameKeepsFenceAbsent(s: string)
    requires !Contains(s, Fence)
    ensures !Contains(RenameTable(s), Fence)
  {
    if Contains(RenameTable(s), Fence) {
      ContainsIff(RenameTable(s), Fence);
      var i :| OccursAt(RenameTable(s), Fence, i);
      var j := RenameCreatesNoNonWord(s, Fence, i);
      NotContainsAt(s, Fence, j);
    }
  }

  /** A text that is one word renames as that word. */
  lemma RenameWord(w: string)
    requires w != [] && forall k :: 0 <= k < |w| ==> IsWordChar(w[k])
    ensures RenameTable(w) == if IsEntity(w) then Table else w
  {
    WordLenUnique(w, |w|);
    var h := HeadWord(w);
    assert w[|w|..] == [];
    assert RenameTable(w) == h + [];
    assert h == if IsEntity(w) then Table else w by {
      assert w[..|w|] == w;
    }
  }

  /** `students` is already the table name and is left alone. */
  lemma RenamePluralUnchanged()
    ensures RenameTable("students") == "students"
  {
    RenameWord("students");
  }

  /** `student_name` is a longer word (`_` is a word character) and is left
      alone. */
  lemma RenameColumnUnchanged()
    ensures RenameTable("student_name") == "student_name"
  {
    RenameWord("student_name");
  }

  /** A bare `Student`, in any case, becomes the table name. */
  lemma RenameSingular()
    ensures RenameTable("Student") == "students"
  {
    RenameWord("Student");
    assert Lower("Student") == "student";
  }

  // ---------------------------------------------------------------------
  // Step 5: append ` LIMIT 50` unless the query is capped or aggregates
  // ---------------------------------------------------------------------

  /** The lowercased query mentions none of `limit`, `count(`, `avg(`,
      `sum(` (plain substrings, so `unlimited` counts as a cap). */
  predicate NeedsLimit(sql: string) {
    var l := Lower(sql);
    !Contains(l, "limit") && !Contains(l, "count(") && !Contains(l, "avg(") && !Contains(l, "sum(")
  }

  /** A query ending in the cap clause needs no further cap. */
  lemma LimitClauseCaps(sql: string)
    ensures !NeedsLimit(sql + LimitClause)
  {
    LowerAppend(sql, LimitClause);
    var l := Lower(sql + LimitClause);
    assert Lower(LimitClause) == " limit 50";
    assert l[|sql| + 1..|sql| + 6] == "limit";
    ContainsAt(l, "limit", |sql| + 1);
  }

  /** The LIMIT injection. */
  function AddLimit(sql: string): (r: string)
    ensures !NeedsLimit(r)
    ensures r == sql <==> !NeedsLimit(sql)
    ensures r != sql ==> r == sql + LimitClause
  {
    if NeedsLimit(sql) then
      LimitClauseCaps(sql);
      sql + LimitClause
    else
      sql
  }

  /** The cap is never added twice. */
  lemma AddLimitIdempotent(sql: string)
    ensures AddLimit(AddLimit(sql)) == AddLimit(sql)
  {
  }

  // ---------------------------------------------------------------------
  // The whole sanitizer
  // ---------------------------------------------------------------------

  /** The shape of every query the sanitizer returns. */
  ghost predicate CleanShape(q: string) {
    && |q| > |Keyword| && StartsWithKeyword(q)
    && ';' !in q
    && !Contains(q, Fence)
    && !IsSpace(q[|q| - 1])
    && !HasEntityWord(q)
    && !NeedsLimit(q)
  }

  /** The cap clause holds no whole-word `student` and so renames to itself. */
  lemma LimitClauseUnrenamed()
    ensures RenameTable(LimitClause) == LimitClause
  {
    forall i ensures !WholeWordAt(LimitClause, i) {
      if 0 <= i && i + |EntityWord| <= |LimitClause| {
        assert i == 0 || i == 1 || i == 2;
        assert Lower(LimitClause[i..i + |EntityWord|])[0] == LowerChar(LimitClause[i]);
      }
    }
    RenameIdentity(LimitClause);
  }

  /** The keyword alone does not count as a cap, so a capped result is
      longer than the keyword. */
  lemma KeywordAloneNeedsLimit(s: string)
    requires |s| == |Keyword| && StartsWithKeyword(s)
    ensures NeedsLimit(s)
  {
    assert s[..|Keyword|] == s;
    KeywordHasNoMarker();
  }

  /** None of the four cap markers occurs in the keyword: each has a letter
      `select` lacks. */
  lemma KeywordHasNoMarker()
    ensures !Contains(Keyword, "limit") && !Contains(Keyword, "count(")
    ensures !Contains(Keyword, "avg(") && !Contains(Keyword, "sum(")
  {
    var l := Keyword;
    assert l[0] == 's' && l[1] == 'e' && l[2] == 'l' && l[3] == 'e' && l[4] == 'c' && l[5] == 't';
    MissingCharAbsent(l, "limit", 1);
    MissingCharAbsent(l, "count(", 1);
    MissingCharAbsent(l, "avg(", 0);
    MissingCharAbsent(l, "sum(", 1);
  }

  /** The shape of a renamed statement before the cap. */
  ghost predicate RenamedForm(r: string) {
    && StartsWithKeyword(r) && ';' !in r && !Contains(r, Fence)
    && r != [] && !IsSpace(r[|r| - 1]) && !HasEntityWord(r)
  }

  /** What the rename keeps of an extracted statement. */
  lemma RenamedShape(sql: string)
    requires StartsWithKeyword(sql) && ';' !in sql && !Contains(sql, Fence)
    requires !IsSpace(sql[|sql| - 1])
    ensures RenamedForm(RenameTable(sql))
  {
    var r := RenameTable(sql);
    RenameKeepsKeyword(sql);
    assert r[..|Keyword|] == sql[..|Keyword|];
    RenameNoSemicolon(sql);
    RenameKeepsFenceAbsent(sql);
    RenameKeepsLast(sql);
    RenameLeavesNoEntityWord(sql);
  }

  /** Appending the cap keeps the leading keyword. */
  lemma CappedKeyword(r: string)
    requires StartsWithKeyword(r)
    ensures StartsWithKeyword(r + LimitClause)
  {
    assert (r + LimitClause)[..|Keyword|] == r[..|Keyword|];
  }

  /** Appending the cap to renamed text leaves no whole-word `student`. */
  lemma CappedNoEntityWord(sql: string)
    ensures !HasEntityWord(RenameTable(sql) + LimitClause)
  {
    RenameAppend(sql, LimitClause);
    LimitClauseUnrenamed();
    RenameLeavesNoEntityWord(sql + LimitClause);
  }

  /** Appending the cap keeps the shape of a renamed statement. */
  lemma CappedShape(sql: string)
    requires var r := RenameTable(sql);
      && StartsWithKeyword(r) && ';' !in r && !Contains(r, Fence)
    ensures CleanShape(RenameTable(sql) + LimitClause)
  {
    var r := RenameTable(sql);
    CappedKeyword(r);
    CappedTail(r);
    AppendKeepsFenceAbsent(r, LimitClause);
    CappedNoEntityWord(sql);
    LimitClauseCaps(r);
  }

  /** The cap adds no semicolon and ends the statement in a digit. */
  lemma CappedTail(r: string)
    requires ';' !in r
    ensures ';' !in r + LimitClause
    ensures !IsSpace((r + LimitClause)[|r + LimitClause| - 1])
  {
    assert (r + LimitClause)[|r + LimitClause| - 1] == '0';
  }

  /** A renamed statement that already has a cap or an aggregate is of the
      clean shape as it is. */
  lemma UncappedShape(r: string)
    requires RenamedForm(r) && !NeedsLimit(r)
    ensures CleanShape(r)
  {
    if |r| == |Keyword| {
      KeywordAloneNeedsLimit(r);
    }
  }

  /** What extraction guarantees about a statement: it starts with the
      keyword, holds no `;` and no fence, and ends in a non-space character. */
  predicate StatementShape(sql: string) {
    StartsWithKeyword(sql) && ';' !in sql && !Contains(sql, Fence) && !IsSpace(sql[|sql| - 1])
  }

  /** Renaming and capping an extracted statement yields the clean shape. */
  lemma FinishShape(sql: string)
    requires StatementShape(sql)
    ensures CleanShape(AddLimit(RenameTable(sql)))
  {
    var r := RenameTable(sql);
    RenamedShape(sql);
    if NeedsLimit(r) {
      CappedShape(sql);
      assert AddLimit(r) == r + LimitClause;
    } else {
      UncappedShape(r);
      assert AddLimit(r) == r;
    }
  }

  /** The renamed statement gets the cap clause exactly when it needs one. */
  lemma CapExactlyWhenNeeded(renamed: string)
    ensures AddLimit(renamed) == renamed + LimitClause <==> NeedsLimit(renamed)
    ensures AddLimit(renamed) == renamed <==> !NeedsLimit(renamed)
  {
    if !NeedsLimit(renamed) {
      assert |renamed + LimitClause| != |renamed|;
    }
  }

  /** The extracted statement has the statement shape. */
  lemma ExtractedStatement(raw: string)
    requires Extract(raw).Some?
    ensures StatementShape(Extract(raw).value)
  {
  }

  /** Steps 4 and 5 on an extracted statement: rename, then cap. */
  function Finish(sql: string): (q: string)
    requires StatementShape(sql)
    ensures CleanShape(q)
  {
    FinishShape(sql);
    AddLimit(RenameTable(sql))
  }

  /** `clean_sql_output`: `None` exactly when the input is empty or holds no
      `select` followed by a character once unfenced; otherwise a query of
      the clean shape. */
  function Clean(raw: string): (r: Option<string>)
    ensures r.None? <==> raw == [] || !HasSelect(Unfence(raw))
    ensures r.Some? ==> CleanShape(r.value)
  {
    var e := Extract(raw);
    if e.None? then None
    else
      ExtractedStatement(raw);
      Some(Finish(e.value))
  }

  /** The cleaned query is the extracted statement renamed, with the cap
      clause appended exactly when the renamed statement needs one. */
  lemma CleanCapsWhenNeeded(raw: string)
    requires Clean(raw).Some?
    ensures Extract(raw).Some?
    ensures var renamed := RenameTable(Extract(raw).value);
      && (Clean(raw).value == renamed + LimitClause <==> NeedsLimit(renamed))
      && (Clean(raw).value == renamed <==> !NeedsLimit(renamed))
  {
    CapExactlyWhenNeeded(RenameTable(Extract(raw).value));
  }

  /** Unfencing leaves a fence-free text with non-space ends alone. */
  lemma UnfenceIdentity(q: string)
    requires !Contains(q, Fence)
    requires q == [] || (!IsSpace(q[0]) && !IsSpace(q[|q| - 1]))
    ensures Unfence(q) == q
  {
    AbsentExtension(q, Fence, "sql");
    assert RemoveAll(RemoveAll(q, SqlFence), Fence) == q by {
      RemoveAllAbsent(q, SqlFence);
      RemoveAllAbsent(q, Fence);
    }
    StripIdentity(q);
  }

  /** Extraction returns a query of the clean shape whole. */
  lemma ExtractIdentity(q: string)
    requires CleanShape(q)
    ensures Extract(q) == Some(q)
  {
    LowersToLetters(q[..|Keyword|], Keyword);
    assert !IsSpace(q[0]) by {
      assert q[0] == q[..|Keyword|][0];
    }
    UnfenceIdentity(q);
    assert SelectMatch(q, 0);
    assert FindSelect(q) == Some(0);
    assert q[0..] == q;
    var u := UpToSemicolon(q);
    assert |u| == |q|;
    StripIdentity(q);
  }

  /** A query of the clean shape is returned unchanged by the sanitizer. */
  lemma CleanShapeFixpoint(q: string)
    requires CleanShape(q)
    ensures Clean(q) == Some(q)
  {
    ExtractIdentity(q);
    RenameIdentity(q);
  }

  /** The sanitizer's fixpoints are exactly the queries of the clean shape. */
  lemma CleanFixpointIff(q: string)
    ensures Clean(q) == Some(q) <==> CleanShape(q)
  {
    if CleanShape(q) {
      CleanShapeFixpoint(q);
    }
  }

  /** Cleaning a cleaned query changes nothing. */
  lemma CleanIdempotent(raw: string)
    requires Clean(raw).Some?
    ensures Clean(Clean(raw).value) == Clean(raw)
  {
    CleanShapeFixpoint(Clean(raw).value);
  }
}

=== FILE: text.dfy ===
/**
 * String primitives used by the sanitizer and the validator: character classes,
 * ASCII lowercasing, substring search, Python's `str.replace(pat, "")` and
 * `str.strip()`.
 */
module Text {

  /** Python's `str.isspace()` (and the regex class `\s`) restricted to ASCII:
      tab, newline, vertical tab, form feed, carriage return, the four
      information separators 0x1C..0x1F, and space. */
  predicate IsSpace(c: char) {
    c == ' ' || (9 <= c as int <= 13) || (28 <= c as int <= 31)
  }

  /** The regex word class `\w` restricted to ASCII: `[A-Za-z0-9_]`. */
  predicate IsWordChar(c: char) {
    ('a' <= c <= 'z') || ('A' <= c <= 'Z') || ('0' <= c <= '9') || c == '_'
  }

  function LowerChar(c: char): (l: char)
    ensures 'A' <= c <= 'Z' ==> 'a' <= l <= 'z' && l as int == c as int + 32
    ensures !('A' <= c <= 'Z') ==> l == c
  {
    if 'A' <= c <= 'Z' then (c as int + 32) as char else c
  }

  /** `str.lower()` on ASCII text. */
  function Lower(s: string): (l: string)
    ensures |l| == |s|
    ensures forall i :: 0 <= i < |s| ==> l[i] == LowerChar(s[i])
  {
    seq(|s|, i requires 0 <= i < |s| => LowerChar(s[i]))
  }

  lemma LowerAppend(a: string, b: string)
    ensures Lower(a + b) == Lower(a) + Lower(b)
  {
  }

  /** Lowercasing keeps the word/non-word classification of a character. */
  lemma LowerKeepsClass(c: char)
    ensures IsWordChar(LowerChar(c)) <==> IsWordChar(c)
    ensures IsSpace(LowerChar(c)) <==> IsSpace(c)
  {
  }

  /** `p` occurs in `s` starting at index `i`. */
  ghost predicate OccursAt(s: string, p: string, i: int) {
    0 <= i && i + |p| <= |s| && s[i..i + |p|] == p
  }

  /** Python's `p in s`, computed by scanning `s` left to right. */
  function Contains(s: string, p: string): bool
    decreases |s|
  {
    if |p| > |s| then false
    else if s[..|p|] == p then true
    else Contains(s[1..], p)
  }

  /** The scan finds `p` exactly when `p` occurs at some index of `s`. */
  lemma {:induction false} ContainsIff(s: string, p: string)
    ensures Contains(s, p) <==> exists i :: OccursAt(s, p, i)
    decreases |s|
  {
    if |p| > |s| {
    } else if s[..|p|] == p {
      assert OccursAt(s, p, 0);
    } else {
      ContainsIff(s[1..], p);
      if exists i :: OccursAt(s[1..], p, i) {
        var i :| OccursAt(s[1..], p, i);
        assert s[1..][i..i + |p|] == s[i + 1..i + 1 + |p|];
        assert OccursAt(s, p, i + 1);
      }
      if exists i :: OccursAt(s, p, i) {
        var i :| OccursAt(s, p, i);
        assert i != 0;
        assert s[1..][i - 1..i - 1 + |p|] == s[i..i + |p|];
        assert OccursAt(s[1..], p, i - 1);
      }
    }
  }

  /** Occurrences in a suffix are occurrences in the whole string. */
  lemma OccursInSuffix(s: string, n: int, p: string, j: int)
    requires 0 <= n <= |s| && OccursAt(s[n..], p, j)
    ensures OccursAt(s, p, n + j)
  {
    assert s[n..][j..j + |p|] == s[n + j..n + j + |p|];
  }

  /** An occurrence in `c + x` that starts past `c` is one in `x`. */
  lemma OccursPastPrefix(c: string, x: string, p: string, i: int)
    requires i >= |c| && OccursAt(c + x, p, i)
    ensures OccursAt(x, p, i - |c|)
  {
    assert (c + x)[i..i + |p|] == x[i - |c|..i - |c| + |p|];
  }

  lemma ContainsAt(s: string, p: string, i: int)
    requires OccursAt(s, p, i)
    ensures Contains(s, p)
  {
    ContainsIff(s, p);
  }

  lemma NotContainsAt(s: string, p: string, i: int)
    requires !Contains(s, p)
    ensures !OccursAt(s, p, i)
  {
    ContainsIff(s, p);
  }

  /** An occurrence inside a slice is an occurrence in the whole string. */
  lemma ContainsInSlice(s: string, lo: int, hi: int, p: string)
    requires 0 <= lo <= hi <= |s|
    requires Contains(s[lo..hi], p)
    ensures Contains(s, p)
  {
    ContainsIff(s[lo..hi], p);
    var i :| OccursAt(s[lo..hi], p, i);
    forall k | 0 <= k < |p|
      ensures s[lo + i + k] == p[k]
    {
      assert s[lo..hi][i..i + |p|][k] == p[k];
    }
    ContainsAt(s, p, lo + i);
  }
  /** A pattern that does not hold the separator `c` and occurs on neither
      side does not occur in the two sides joined by `c`. */
  lemma JoinKeepsAbsence(x: string, c: char, y: string, p: string)
    requires c !in p && !Contains(x, p) && !Contains(y, p)
    ensures !Contains(x + [c] + y, p)
  {
    var head := x + [c];
    var s := head + y;
    forall i ensures !OccursAt(s, p, i) {
      if 0 <= i && i + |p| <= |s| {
        if i + |p| <= |x| {
          assert s[i..i + |p|] == x[i..i + |p|];
          NotContainsAt(x, p, i);
        } else if i >= |head| {
          assert s[i..i + |p|] == y[i - |head|..i - |head| + |p|];
          NotContainsAt(y, p, i - |head|);
        } else {
          assert s[i..i + |p|][|x| - i] == c;
        }
      }
    }
    ContainsIff(s, p);
  }

  /** `JoinKeepsAbsence` for every pattern of a list. */
  lemma JoinKeepsAllAbsent(x: string, c: char, y: string, ps: seq<string>)
    requires forall p :: p in ps ==> c !in p && !Contains(x, p) && !Contains(y, p)
    ensures forall p :: p in ps ==> !Contains(x + [c] + y, p)
  {
    forall p | p in ps
      ensures !Contains(x + [c] + y, p)
    {
      JoinKeepsAbsence(x, c, y, p);
    }
  }

  /** A slice of a string without `p` has no `p` either. */
  lemma SliceKeepsAbsence(s: string, lo: int, hi: int, u: string, p: string)
    requires 0 <= lo <= hi <= |s| && u == s[lo..hi]
    requires !Contains(s, p)
    ensures !Contains(u, p)
  {
    if Contains(u, p) {
      ContainsInSlice(s, lo, hi, p);
    }
  }


  /** A string that contains `p + q` contains `p`. */
  lemma ContainsPrefixOfPattern(s: string, p: string, q: string)
    requires Contains(s, p + q)
    ensures Contains(s, p)
  {
    ContainsIff(s, p + q);
    var i :| OccursAt(s, p + q, i);
    assert s[i..i + |p|] == (p + q)[..|p|];
    ContainsAt(s, p, i);
  }
  /** A pattern holding a character that `s` lacks does not occur in `s`. */
  lemma MissingCharAbsent(s: string, p: string, k: nat)
    requires k < |p|
    requires forall j :: 0 <= j < |s| ==> s[j] != p[k]
    ensures !Contains(s, p)
  {
    forall i ensures !OccursAt(s, p, i) {
      if 0 <= i && i + |p| <= |s| {
        assert s[i..i + |p|][k] == s[i + k];
      }
    }
    ContainsIff(s, p);
  }

  /** A string without `p` has no occurrence of any extension of `p`. */
  lemma AbsentExtension(s: string, p: string, q: string)
    requires !Contains(s, p)
    ensures !Contains(s, p + q)
  {
    if Contains(s, p + q) {
      ContainsPrefixOfPattern(s, p, q);
    }
  }


  /** Python's `s.replace(pat, "")`: every leftmost, non-overlapping
      occurrence of `pat` is deleted in one left-to-right pass. */
  function RemoveAll(s: string, pat: string): (r: string)
    requires |pat| > 0
    ensures |r| <= |s|
    decreases |s|
  {
    if |s| < |pat| then s
    else if s[..|pat|] == pat then RemoveAll(s[|pat|..], pat)
    else [s[0]] + RemoveAll(s[1..], pat)
  }

  /** Removing a pattern that does not occur changes nothing. */
  lemma {:induction false} RemoveAllAbsent(s: string, pat: string)
    requires |pat| > 0
    requires !Contains(s, pat)
    ensures RemoveAll(s, pat) == s
    decreases |s|
  {
    if |s| >= |pat| {
      RemoveAllAbsent(s[1..], pat);
    }
  }

  /** The markdown code fence. */
  const Fence := "```"

  /** The statement keyword the cleaner searches for and the validator
      requires first, already lowercase. */
  const Keyword := "select"

  /** Removal keeps a leading character that cannot start a fence. */
  lemma RemoveFenceHead(s: string)
    requires |s| > 0 && s[0] != '`'
    ensures RemoveAll(s, Fence) == [s[0]] + RemoveAll(s[1..], Fence)
  {
    if |s| < 3 {
      assert RemoveAll(s[1..], Fence) == s[1..];
      assert s == [s[0]] + s[1..];
    }
  }

  /** After `replace("```", "")` no fence is left: a run of k backticks
      shrinks to k mod 3 of them. */
  lemma {:induction false} NoFenceAfterRemoval(s: string)
    ensures !Contains(RemoveAll(s, Fence), Fence)
    decreases |s|
  {
    if |s| < 3 {
    } else if s[..3] == Fence {
      NoFenceAfterRemoval(s[3..]);
    } else {
      var x := RemoveAll(s[1..], Fence);
      NoFenceAfterRemoval(s[1..]);
      assert RemoveAll(s, Fence) == [s[0]] + x;
      if s[0] == '`' && |x| >= 2 {
        if s[1] != '`' {
          RemoveFenceHead(s[1..]);
        } else {
          assert s[2] != '`';
          if |s| == 3 {
            assert x == s[1..];
          } else {
            assert s[1..][..3] != Fence;
            assert x == [s[1]] + RemoveAll(s[2..], Fence);
            RemoveFenceHead(s[2..]);
          }
        }
        assert ([s[0]] + x)[..3] != Fence;
      }
    }
  }

  /** Appending text without a backtick creates no code fence. */
  lemma AppendKeepsFenceAbsent(a: string, b: string)
    requires !Contains(a, Fence)
    requires '`' !in b
    ensures !Contains(a + b, Fence)
  {
    var s := a + b;
    forall i ensures !OccursAt(s, Fence, i) {
      if 0 <= i && i + 3 <= |a| {
        assert s[i..i + 3] == a[i..i + 3];
        NotContainsAt(a, Fence, i);
      } else if 0 <= i && i + 3 <= |s| {
        assert s[i + 2] == b[i + 2 - |a|];
        assert s[i + 2] == s[i..i + 3][2];
      }
    }
    ContainsIff(s, Fence);
  }

  /** A prefix of a prefix of `t[i..]` is the slice of `t` at `i`. */
  lemma PrefixOfSuffix(t: string, i: nat, u: string, p: string)
    requires i <= |t| && |u| <= |t| - i && u == t[i..][..|u|]
    requires |p| <= |u| && p == u[..|p|]
    ensures i + |p| <= |t| && p == t[i..i + |p|]
  {
    assert u == t[i..i + |u|];
  }

  /** A suffix of a prefix of `t[i..]` is a slice of `t`. */
  lemma SuffixOfPrefix(t: string, i: nat, u: string, k: nat)
    requires i <= |t| && |u| <= |t| - i && u == t[i..][..|u|] && k <= |u|
    ensures t[i + k..i + |u|] == u[k..]
  {
    assert u == t[i..i + |u|];
  }

  /** The two sides of a split of `s` join back to `s`. */
  lemma JoinAtSplit(s: string, n: nat, x: string, y: string)
    requires n <= |s| && x == s[..n] && y == s[n..]
    ensures x + y == s
  {
  }

  /** The last character of a join with a non-empty right side is that
      side's last character. */
  lemma LastOfJoin(x: string, y: string)
    requires y != []
    ensures (x + y)[|x + y| - 1] == y[|y| - 1]
  {
  }

  predicate AllSpace(s: string) {
    forall k :: 0 <= k < |s| ==> IsSpace(s[k])
  }

  /** Python's `s.lstrip()`: drops the longest all-space prefix. */
  function LStrip(s: string): (r: string)
    ensures |r| <= |s| && r == s[|s| - |r|..]
    ensures r == [] || !IsSpace(r[0])
    ensures forall i :: 0 <= i < |s| - |r| ==> IsSpace(s[i])
    decreases |s|
  {
    if |s| > 0 && IsSpace(s[0]) then LStrip(s[1..]) else s
  }

  /** Left-stripping stops at the first non-space character. */
  lemma {:induction false} LStripAt(s: string, k: nat)
    requires k < |s| && AllSpace(s[..k]) && !IsSpace(s[k])
    ensures LStrip(s) == s[k..]
    decreases k
  {
    if k > 0 {
      assert IsSpace(s[0]) by {
        assert s[..k][0] == s[0];
      }
      assert s[1..][..k - 1] == s[..k][1..];
      LStripAt(s[1..], k - 1);
    }
  }

  /** Text appended after a non-blank string is kept whole by `lstrip()`. */
  lemma {:induction false} LStripAppend(a: string, c: string)
    requires LStrip(a) != []
    ensures LStrip(a + c) == LStrip(a) + c
    decreases |a|
  {
    assert (a + c)[0] == a[0];
    if IsSpace(a[0]) {
      assert (a + c)[1..] == a[1..] + c;
      LStripAppend(a[1..], c);
    }
  }

  /** Python's `s.rstrip()`: drops the longest all-space suffix. */
  function RStrip(s: string): (r: string)
    ensures |r| <= |s| && r == s[..|r|]
    ensures r == [] || !IsSpace(r[|r| - 1])
    ensures forall i :: |r| <= i < |s| ==> IsSpace(s[i])
    decreases |s|
  {
    if |s| > 0 && IsSpace(s[|s| - 1]) then RStrip(s[..|s| - 1]) else s
  }

  /** Python's `s.strip()`. */
  function Strip(s: string): (r: string)
  {
    RStrip(LStrip(s))
  }

  /** `Strip` returns the infix of `s` between its all-space ends. */
  lemma StripShape(s: string) returns (lo: nat)
    ensures lo + |Strip(s)| <= |s|
    ensures Strip(s) == s[lo..lo + |Strip(s)|]
    ensures forall i :: 0 <= i < lo ==> IsSpace(s[i])
    ensures forall i :: lo + |Strip(s)| <= i < |s| ==> IsSpace(s[i])
    ensures Strip(s) == [] || (!IsSpace(Strip(s)[0]) && !IsSpace(Strip(s)[|Strip(s)| - 1]))
  {
    var l := LStrip(s);
    lo := |s| - |l|;
    assert Strip(s) == RStrip(l);
    RStripWithin(s, lo, l);
    assert forall i :: 0 <= i < lo ==> IsSpace(s[i]);
  }

  /** Right-stripping a suffix of `s` leaves an infix of `s` followed by
      spaces only. */
  lemma RStripWithin(s: string, lo: nat, l: string)
    requires lo <= |s| && l == s[lo..]
    ensures RStrip(l) == s[lo..lo + |RStrip(l)|]
    ensures forall i :: lo + |RStrip(l)| <= i < |s| ==> IsSpace(s[i])
  {
    var r := RStrip(l);
    assert r == l[..|r|];
    forall i | lo + |r| <= i < |s|
      ensures IsSpace(s[i])
    {
      assert s[i] == l[i - lo];
    }
  }

  /** Stripping cannot create an occurrence of a pattern. */
  lemma StripKeepsAbsence(s: string, p: string)
    requires !Contains(s, p)
    ensures !Contains(Strip(s), p)
  {
    var lo := StripShape(s);
    if Contains(Strip(s), p) {
      ContainsInSlice(s, lo, lo + |Strip(s)|, p);
    }
  }

  /** A string with non-space ends is left as it is by `strip()`. */
  lemma StripIdentity(s: string)
    requires s == [] || (!IsSpace(s[0]) && !IsSpace(s[|s| - 1]))
    ensures Strip(s) == s
  {
  }
}

=== FILE: validator.dfy ===
/**
 * `validate_sql` (main.py): the only gate between model output and the
 * database.  A query passes when, after leading whitespace, it starts with
 * the word `select` (any case) and its lowercase form contains none of the
 * forbidden keywords as a plain substring.
 */
module Validator {
  import opened Text

  /** Keywords that block a query wherever they occur, even inside a longer
      identifier or a string literal. */
  const Forbidden := ["insert", "update", "delete", "drop", "alter", "truncate"]

  /** `re.match(r"^\s*select\b", q, re.IGNORECASE)`: `\s*` is greedy and no
      whitespace character can start `select`, so it consumes exactly the
      leading whitespace. */
  predicate BeginsWithSelect(q: string) {
    var t := LStrip(q);
    |t| >= |Keyword| && Lower(t[..|Keyword|]) == Keyword
    && (|t| == |Keyword| || !IsWordChar(t[|Keyword|]))
  }

  /** `any(word in q.lower() for word in forbidden)`. */
  predicate MentionsForbidden(q: string) {
    exists w :: w in Forbidden && Contains(Lower(q), w)
  }

  /** The word `select` stands at index `k` of `q`. */
  ghost predicate SelectWordAt(q: string, k: int) {
    && 0 <= k && k + |Keyword| <= |q|
    && Lower(q[k..k + |Keyword|]) == Keyword
    && (k + |Keyword| == |q| || !IsWordChar(q[k + |Keyword|]))
  }

  /** Reference reading of the first check: only whitespace precedes a
      `select` word. */
  ghost predicate SelectAfterBlanks(q: string) {
    exists k :: 0 <= k <= |q| && AllSpace(q[..k]) && SelectWordAt(q, k)
  }

  /** Reference reading of the second check: forbidden keyword `w` occurs at
      index `i` of the lowercased query. */
  ghost predicate ForbiddenAt(q: string, w: string, i: int) {
    w in Forbidden && OccursAt(Lower(q), w, i)
  }

  lemma BeginsWithSelectSound(q: string)
    requires BeginsWithSelect(q)
    ensures SelectAfterBlanks(q)
  {
    var t := LStrip(q);
    var k0 := |q| - |t|;
    assert AllSpace(q[..k0]);
    assert q[k0..k0 + |Keyword|] == t[..|Keyword|];
    assert k0 + |Keyword| < |q| ==> q[k0 + |Keyword|] == t[|Keyword|];
    assert SelectWordAt(q, k0);
  }

  lemma BeginsWithSelectComplete(q: string, k: int)
    requires 0 <= k <= |q| && AllSpace(q[..k]) && SelectWordAt(q, k)
    ensures BeginsWithSelect(q)
  {
    var kw := q[k..k + |Keyword|];
    assert !IsSpace(q[k]) by {
      assert LowerChar(kw[0]) == Lower(kw)[0] == 's';
    }
    LStripAt(q, k);
    var t := q[k..];
    assert t[..|Keyword|] == kw;
    assert k + |Keyword| < |q| ==> q[k + |Keyword|] == t[|Keyword|];
  }

  lemma BeginsWithSelectIff(q: string)
    ensures BeginsWithSelect(q) <==> SelectAfterBlanks(q)
  {
    if BeginsWithSelect(q) {
      BeginsWithSelectSound(q);
    }
    if SelectAfterBlanks(q) {
      var k :| 0 <= k <= |q| && AllSpace(q[..k]) && SelectWordAt(q, k);
      BeginsWithSelectComplete(q, k);
    }
  }

  lemma MentionsForbiddenIff(q: string)
    ensures MentionsForbidden(q) <==> exists w, i :: ForbiddenAt(q, w, i)
  {
    var l := Lower(q);
    if MentionsForbidden(q) {
      var w :| w in Forbidden && Contains(l, w);
      ContainsIff(l, w);
      var i :| OccursAt(l, w, i);
      assert ForbiddenAt(q, w, i);
    }
    if exists w, i :: ForbiddenAt(q, w, i) {
      var w, i :| ForbiddenAt(q, w, i);
      ContainsAt(l, w, i);
    }
  }

  /** `validate_sql`: true exactly when only whitespace precedes a `select`
      word and no forbidden keyword occurs anywhere, in any case. */
  function IsSafe(q: string): (ok: bool)
    ensures ok <==> SelectAfterBlanks(q) && forall w, i :: !ForbiddenAt(q, w, i)
  {
    BeginsWithSelectIff(q);
    MentionsForbiddenIff(q);
    BeginsWithSelect(q) && !MentionsForbidden(q)
  }

  /** A forbidden keyword inside a string literal still blocks the query
      (the accepted false positive of plain substring matching). */
  lemma LiteralUpdateRejected()
    ensures !IsSafe("SELECT * FROM students WHERE field_of_study ILIKE '%update%'")
  {
    var q := "SELECT * FROM students WHERE field_of_study ILIKE '%update%'";
    assert q[52..58] == "update";
    assert Lower(q)[52..58] == Lower(q[52..58]);
    assert ForbiddenAt(q, "update", 52);
  }

  /** A query whose first character is neither whitespace nor an `s`, such
      as one opening with a comment (`/* x */ SELECT 1`), is rejected. */
  lemma CommentFirstRejected(q: string)
    requires q != [] && !IsSpace(q[0]) && LowerChar(q[0]) != 's'
    ensures !IsSafe(q)
  {
    assert LStrip(q) == q;
    if |q| >= |Keyword| {
      assert Lower(q[..|Keyword|])[0] == LowerChar(q[0]);
    }
  }

  /** `select` must be a whole word: a query whose first word merely begins
      with it (`selected_rows`) is rejected. */
  lemma KeywordBoundaryRequired(q: string)
    requires |q| > |Keyword| && Lower(q[..|Keyword|]) == Keyword && IsWordChar(q[|Keyword|])
    ensures !IsSafe(q)
  {
    assert LowerChar(q[0]) == Lower(q[..|Keyword|])[0] == 's';
    assert !IsSpace(q[0]);
    assert LStrip(q) == q;
  }

  /** The validator does not look for a statement separator: two queries it
      accepts, joined by `;`, are accepted together.  In the route the
      sanitizer has already cut its text at the first `;`, so no executed
      query holds two statements. */
  lemma JoinedStatementsAccepted(a: string, b: string)
    requires IsSafe(a) && IsSafe(b)
    ensures IsSafe(a + ";" + b)
  {
    JoinedChecks(a, b);
  }

  /** Both checks of the validator survive joining two queries with `;`. */
  lemma JoinedChecks(a: string, b: string)
    requires BeginsWithSelect(a) && !MentionsForbidden(a) && !MentionsForbidden(b)
    ensures BeginsWithSelect(a + ";" + b) && !MentionsForbidden(a + ";" + b)
  {
    JoinedSelect(a, ";" + b);
    assert a + ";" + b == a + (";" + b);
    JoinedNoForbidden(a, b);
  }

  /** A `;` cannot complete a forbidden keyword across the join. */
  lemma JoinedNoForbidden(a: string, b: string)
    requires !MentionsForbidden(a) && !MentionsForbidden(b)
    ensures !MentionsForbidden(a + ";" + b)
  {
    var q := a + ";" + b;
    assert Lower(q) == Lower(a) + [';'] + Lower(b) by {
      LowerAppend(a, ";");
      LowerAppend(a + ";", b);
      assert Lower(";") == [';'];
    }
    ForbiddenWithoutSeparator();
    JoinKeepsAllAbsent(Lower(a), ';', Lower(b), Forbidden);
  }

  /** No forbidden keyword holds a `;`. */
  lemma ForbiddenWithoutSeparator()
    ensures forall w :: w in Forbidden ==> ';' !in w
  {
  }

  /** Text after a `select` word that starts with a non-word character
      keeps the word at the head. */
  lemma JoinedSelect(a: string, c: string)
    requires BeginsWithSelect(a) && c != [] && !IsWordChar(c[0])
    ensures BeginsWithSelect(a + c)
  {
    var t := LStrip(a);
    LStripAppend(a, c);
    var u := t + c;
    assert u[..|Keyword|] == t[..|Keyword|];
    assert |t| == |Keyword| || u[|Keyword|] == t[|Keyword|];
  }
}

=== FILE: wrappers.dfy ===
/** An optional value: `None` stands for a Python function's `None` result, `Some` for an ordinary one. */
module Wrappers {

  datatype Option<+T> = None | Some(value: T)
}
